=== FILE: README.md ===
# GPS tracker component — a Dafny model

This project models the computational core of a React GPS tracking component
(`src/component/gpsGarminReact.tsx`). It covers the following parts:

- **Position display.** Three systems are modelled:
  - decimal degrees;
  - degrees/minutes/seconds;
  - UTM: zone number, band letter, central meridian and false origin.
- **Search box.** The classifier decides whether a query is a decimal pair, a UTM reference (which is unsupported), a DMS text (also unsupported) or invalid.
- **Track recorder.** This is the admission filter applied to each geolocation fix while tracking is on, plus clearing.
- **Saved waypoints.** The model covers saving the current position under a name and deleting by identifier.
- **Exports.** There are two:
  - a GPX 1.1 document;
  - a tab-separated text listing in UTM.
- **Accuracy indicator.** This is the dot's colour.

Modules:

- `Base`: the optional value, a position, and `Platform`. `Platform` is a record of the host functions the component reaches through JavaScript built-ins. They are left as parameters:
  - `toFixed`;
  - number-to-text;
  - `parseFloat`;
  - ISO and locale date rendering.
- `Text`: the string built-ins the component uses:
  - `trim`, using the ECMAScript white-space set;
  - `split` and `join` with a one-character separator;
  - `join('')`;
  - the decimal text of an integer.
- `Codec`:
  - `convertToUTM` (everything except the Transverse Mercator series);
  - `convertToDMS`;
  - `formatCoordinates`.
- `Search`: a hand-written matcher for the UTM pattern `\d+[A-Z]\s+\d+(\.\d+)?E\s+\d+(\.\d+)?N` with the `i` flag. It is proved sound and complete against a declarative description of the matched text. The module also holds the ordered classifier `searchCoordinates`.
- `Track`:
  - the per-fix track update;
  - `clearTrack`;
  - the recorder as a state machine over toggle, fix and clear events.
- `Waypoints`: `saveCurrentPoint` and `deletePoint`. The identifier and the timestamp are parameters; the component draws them from `crypto.randomUUID()` and `Date.now()`.
- `Export`: `exportGPX` (a document value, then its exact template text) and `exportTXT`.
- `Indicator`: the accuracy colour cascade.

## The band letters

The letter table the component uses gives each latitude the letter one before its standard UTM letter, so each letter's band lies 8° north of its standard band:

- `M` is [0, 8);
- `N` is [8, 16);
- `X` starts at 84 and is open-ended;
- `B` covers everything south of -72.

The model follows the code: `ZoneLetter` is the code's cascade. Against standard lettering, two lemmas show the difference:

- `Codec.ZoneLetterShiftedFromStandard` proves the one-letter shift on [-80, 84).
- `Codec.NewYorkBand` shows that 40.7128 gets `S` where standard UTM gives `T`.

The false northing is still chosen by `lat < 0`, so the letter no longer tells the hemisphere under the standard rule "before `N`". `Codec.StandardHemisphereRuleMisfits` shows this at latitude 4.

## Model

Source paths are relative to the repository root.

| member | source | states |
|---|---|---|
| Codec.ConvertToUtm | src/component/gpsGarminReact.tsx:379-448 | `convertToUTM`: the zone is `floor((lng + 180) / 6) + 1` and the letter is the table's letter for the latitude; easting and northing are `Codec.Project`'s rendered by `toFixed(4)`; its properties are the rows `Codec.ZoneRange` to `Codec.StandardHemisphereRuleMisfits` |
| Codec.Project | src/component/gpsGarminReact.tsx:390-440 | the projection before rendering: the zone number and band letter are those of the position, and the letter marks the position southern exactly when its latitude is negative; removing the false easting and false northing gives back the series at the central meridian offset, stated by `Codec.ProjectFalseOrigin` |
| Codec.ZoneLetter | src/component/gpsGarminReact.tsx:393-412 | the 21-way threshold cascade; its letters lie between `B` and `X` and are never `I` or `O`; stated further by `Codec.ZoneLetterByBand`, `Codec.ZoneLetterEnds` and `Codec.ZoneLetterMonotone` |
| Codec.ZoneRange | src/component/gpsGarminReact.tsx:390 | every longitude in [-180, 180) falls in a zone numbered 1 to 60 |
| Codec.ZoneAtAntimeridian | src/component/gpsGarminReact.tsx:390 | longitude 180 gets zone 61; the zone number is not clamped |
| Codec.WithinZone | src/component/gpsGarminReact.tsx:390-415 | a longitude lies within 3 degrees of its zone's central meridian: −3 ≤ lng − λ0 < 3 |
| Codec.ZoneLetterByBand | src/component/gpsGarminReact.tsx:393-412 | the 21-way threshold cascade equals the 8-degree band arithmetic over the letter list `BCDEFGHJKLMNPQRSTUVWX` |
| Codec.BandOfBlock | src/component/gpsGarminReact.tsx:393-412 | each 8-degree block [8k, 8k+8) for −9 ≤ k ≤ 8 has a single letter, the (k+10)-th |
| Codec.ZoneLetterMonotone | src/component/gpsGarminReact.tsx:393-412 | a more northern latitude never gets an earlier letter |
| Codec.ZoneLetterEnds | src/component/gpsGarminReact.tsx:393-412 | `X` exactly from 84 north; `B` exactly south of −72; never `A`, `I` or `O` |
| Codec.ZoneLetterShiftedFromStandard | src/component/gpsGarminReact.tsx:393-412 | on [−80, 84) the letter is one before the standard UTM letter |
| Codec.NewYorkBand | src/component/gpsGarminReact.tsx:393-412 | latitude 40.7128 gets `S`, where the standard letter is `T` |
| Codec.ProjectFalseOrigin | src/component/gpsGarminReact.tsx:415-440 | easting carries +500000 always; northing carries +10000000 exactly when lat < 0, i.e. exactly when the letter precedes `M`; removing the false origin returns the series value at the central meridian |
| Codec.StandardHemisphereRuleMisfits | src/component/gpsGarminReact.tsx:403-440 | at latitude 4 the letter `M` precedes `N`, yet no false northing is added |
| Codec.ToDms | src/component/gpsGarminReact.tsx:453-463 | degrees and minutes are whole; minutes and seconds lie in [0, 60); the parts add up to abs(x); the direction is N/S or E/W and is N or E exactly when x ≥ 0 |
| Codec.DmsText | src/component/gpsGarminReact.tsx:453-465 | `convertToDMS`: the text is non-empty, opens with a digit and closes with the direction letter; further stated by `Codec.ToDms`, `Codec.DmsTextShape` and `Codec.DmsTextFields` |
| Codec.DmsRoundTrip | src/component/gpsGarminReact.tsx:453-463 | reading the signed value back from the parts gives x |
| Codec.DmsUnique | src/component/gpsGarminReact.tsx:453-458 | any well-formed split of abs(x) into degrees, minutes and seconds is the one computed |
| Codec.DmsTextShape | src/component/gpsGarminReact.tsx:458-464 | the DMS text starts with the whole degrees in decimal digits followed by `°`, and ends with the direction letter |
| Codec.DmsTextFields | src/component/gpsGarminReact.tsx:454-464 | the DMS text reads back field by field: whole degrees in decimal digits, `°`, whole minutes in decimal digits, `'`, the seconds as `toFixed(2)` renders them, `"` and the direction letter, with no other characters |
| Codec.FormatCoordinates | src/component/gpsGarminReact.tsx:470-485 | `formatCoordinates`: no position renders `Waiting for GPS...`; each other branch is stated by `Codec.FormatDispatch` |
| Codec.FormatDispatch | src/component/gpsGarminReact.tsx:470-485 | no position gives `Waiting for GPS...`; `dd` gives both values to six places each followed by `°`, separated by `, `; `dms` gives the latitude's DMS text, a blank, then the longitude's; any system other than `dms` and `utm` renders like `dd`; the UTM text is zone, letter, easting `E`, northing `N` |
| Codec.UtmTextLeadsWithZone | src/component/gpsGarminReact.tsx:478-481 | the UTM text starts with the zone number's digits, followed directly by the band letter |
| Search.NumberMarksSound | src/component/gpsGarminReact.tsx:530 | a number found by the matcher is a digit run, optionally a dot and a digit run, then the unit letter in either case |
| Search.NumberMarksComplete | src/component/gpsGarminReact.tsx:530 | every number-then-unit text of that form is found by the matcher |
| Search.MatchMarksSound | src/component/gpsGarminReact.tsx:530 | a match has the pattern's shape: zone digits, a letter, blanks, an easting with `E`, blanks, a northing with `N` |
| Search.MatchMarksComplete | src/component/gpsGarminReact.tsx:530 | every text of that shape starting at a position is matched there |
| Search.UtmLikeIffShape | src/component/gpsGarminReact.tsx:530 | the pattern test succeeds exactly when some position starts text of the pattern's shape |
| Search.NoEastingUnitNotUtmLike | src/component/gpsGarminReact.tsx:530 | text with no `E` or `e` never matches the UTM pattern |
| Search.SearchCoordinates | src/component/gpsGarminReact.tsx:517-573 | `searchCoordinates`: a found pair only with exactly one comma; with a comma, found or invalid; further stated by `Search.SearchWithComma` and `Search.SearchWithoutComma` |
| Search.Feedback | src/component/gpsGarminReact.tsx:531-571 | a message is shown exactly when the search does not move the map |
| Search.SearchWithComma | src/component/gpsGarminReact.tsx:523-527 | a query with a comma is found or invalid; found exactly when there is one comma and both trimmed sides parse, and then at those two numbers |
| Search.SearchWithoutComma | src/component/gpsGarminReact.tsx:529-538 | without a comma: UTM-unsupported iff the pattern matches; DMS-unsupported iff it does not match and `°` occurs; otherwise invalid |
| Search.SearchHasNoRangeCheck | src/component/gpsGarminReact.tsx:523-527 | `100, 200` is found at (100, 200); no latitude/longitude range check is made |
| Search.SearchUtmExample | src/component/gpsGarminReact.tsx:529-533 | `18T 585628E 4511322N` is reported as unsupported UTM |
| Search.SearchDmsExample | src/component/gpsGarminReact.tsx:534-538 | `40°42'46"N 74°00'21"W` is reported as unsupported DMS |
| Search.SearchInvalidExample | src/component/gpsGarminReact.tsx:566-568 | `not a coord` is invalid |
| Track.RecordFix | src/component/gpsGarminReact.tsx:250-264 | the track is kept as a prefix and grows by at most one point. It grows exactly when tracking is on, both coordinates are non-zero, accuracy < 20 and the fix differs from the last point; the point appended is the fix. No adjacent repeats and no zero coordinates are preserved |
| Track.ClearTrack | src/component/gpsGarminReact.tsx:578-581 | `clearTrack`: a confirmed clear empties the track, a declined one keeps it |
| Track.ClearThenRecord | src/component/gpsGarminReact.tsx:578-581 | a declined confirmation keeps the track; after a confirmed clear the next fix starts a one-point track if admissible, else the track stays empty |
| Track.Run | src/component/gpsGarminReact.tsx:250-264 | over any sequence of events, no adjacent repeats and no zero coordinates survive; without a confirmed clear the old track stays a prefix, so a declined clear does not break it; the track grows by at most the number of events |
| Track.RecorderExample | src/component/gpsGarminReact.tsx:250-264 | toggling on, then fixes (1,1,5), (1,1,5), (1,2,5), (1,2,25), records [(1,1), (1,2)] |
| Waypoints.SavePoint | src/component/gpsGarminReact.tsx:294-312 | no position, a cancelled prompt or an empty name leaves the list unchanged; otherwise exactly one point is appended, with the given id, name, position and time |
| Waypoints.BlankNameAccepted | src/component/gpsGarminReact.tsx:297-298 | a name of blanks is saved as-is; it is not trimmed |
| Waypoints.DeletePoint | src/component/gpsGarminReact.tsx:317-323 | `deletePoint`: a declined confirmation leaves the list unchanged; a confirmed one keeps exactly the points with another id |
| Waypoints.WithoutIdContents | src/component/gpsGarminReact.tsx:320 | the survivors are exactly the points with another id; the list is shorter exactly when some point carried the id |
| Waypoints.WithoutIdConcat | src/component/gpsGarminReact.tsx:320 | the filter distributes over concatenation, so survivors keep their order |
| Waypoints.WithoutAbsentId | src/component/gpsGarminReact.tsx:320 | deleting an id no point carries changes nothing |
| Waypoints.DeleteIdempotent | src/component/gpsGarminReact.tsx:317-323 | deleting an id twice is the same as deleting it once |
| Waypoints.DeleteUndoesSave | src/component/gpsGarminReact.tsx:294-323 | deleting a point just saved under a fresh id restores the list |
| Waypoints.SaveDeleteKeepUniqueIds | src/component/gpsGarminReact.tsx:294-323 | saving under a fresh id, and deleting, keep ids unique |
| Waypoints.UniqueIdsWithout | src/component/gpsGarminReact.tsx:320 | filtering keeps ids unique |
| Export.ExportGpx | src/component/gpsGarminReact.tsx:328-347 | `exportGPX`: the file always opens with the XML declaration and the GPX 1.1 root tag; the text of the document `Export.GpxOf` builds is further stated by `Export.GpxTextShape`, `Export.GpxTrackText` and `Export.SegmentTextAppend` |
| Export.GpxOf | src/component/gpsGarminReact.tsx:328-347 | one waypoint per saved point, in order, with that point's name, coordinates and ISO time; a track exactly when there are track points, with one time-less trkpt per point in order and the dated track name |
| Export.GpxAppendPoint | src/component/gpsGarminReact.tsx:331-336 | saving one more point adds one waypoint at the end, independent of the track |
| Export.WaypointsTextAppend | src/component/gpsGarminReact.tsx:331-336 | the waypoint text of a concatenation is the concatenation of the texts |
| Export.GpxTextShape | src/component/gpsGarminReact.tsx:328-347 | the file starts with the XML declaration and the GPX 1.1 root with creator and namespace; without track points there is no `trk` text; one more point inserts exactly its `wpt` text after the others |
| Export.GpxTrackText | src/component/gpsGarminReact.tsx:336-344 | with track points, the file continues after the waypoint texts with one `trk` element named `Track ` and the export date, holding the segment text, then closes the root |
| Export.SegmentTextAppend | src/component/gpsGarminReact.tsx:340-341 | the segment text is one time-less `trkpt` text per track point in order: empty for no points, and one more point appends exactly its text |
| Export.ExportTxt | src/component/gpsGarminReact.tsx:352-359 | `exportTXT`: the text is empty exactly when there are no saved points; further stated by `Export.ExportTxtLines`, `Export.TxtLineFields` and `Export.TxtColumnIsUtmText` |
| Export.ExportTxtLines | src/component/gpsGarminReact.tsx:352-359 | no points give the empty text; splitting on line feeds returns one line per point in order; one more point appends a line feed and its line |
| Export.TxtLinesAppend | src/component/gpsGarminReact.tsx:353-356 | one more point adds its line at the end of the lines |
| Export.UtmColumnShape | src/component/gpsGarminReact.tsx:355 | the UTM column holds no tab and starts with the zone digits followed by the letter |
| Export.TxtLineFields | src/component/gpsGarminReact.tsx:353-356 | a line splits on tabs into exactly name, UTM column and local time; the column's zone and letter are those of the point, and its easting and northing are stated by `Export.TxtColumnIsUtmText` |
| Export.TxtColumnIsUtmText | src/component/gpsGarminReact.tsx:355 | the UTM column of a point equals the `utm` display text of its position: zone, letter, blank, easting to four places with `E`, blank, northing to four places with `N` |
| Indicator.AccuracyLight | src/component/gpsGarminReact.tsx:608-611 | green iff a reading ≤ 5 m; yellow iff in (5, 10]; red iff none or > 10 m |
| Indicator.AccuracyLightMonotone | src/component/gpsGarminReact.tsx:608-611 | a smaller radius never shows a worse colour |
| Text.Trim | src/component/gpsGarminReact.tsx:524 | the result is the slice of the input after the leading white space; white space alone follows it; it neither starts nor ends with white space |
| Text.TrimIdempotent | src/component/gpsGarminReact.tsx:524 | trimming twice is trimming once |
| Text.Split | src/component/gpsGarminReact.tsx:524 | one more part than separators; no part holds the separator |
| Text.JoinSplit | src/component/gpsGarminReact.tsx:524 | joining the parts of a split with the separator gives the input back |
| Text.SplitJoin | src/component/gpsGarminReact.tsx:524 | splitting a join of separator-free parts gives the parts back |
| Text.IntToString | src/component/gpsGarminReact.tsx:480 | the text of an integer is its shortest decimal digits (no leading zero), with a leading minus sign for negatives, and reads back as that integer |

## Left out

- **The Transverse Mercator series** (the ellipsoid constants at lines 381-387 and the series at lines 418-437): the trigonometric expansion giving the raw easting and northing is a parameter `Series` of (latitude, longitude minus central meridian). The model keeps everything around it: zone, letter, central meridian and false origin.
- **Platform rendering and parsing.** Number rendering (`toFixed`, number-to-text in template literals), `parseFloat`, and ISO/locale date rendering are `Platform` parameters. Floating-point rounding is not modelled, and coordinates are `real`. One consequence: a `toFixed(2)` that rounds seconds up to `60.00` is not visible in the model.
- **NaN and Infinity.** These inputs are not modelled. `parseFloat` returning `NaN` is `None`.
- Text.IntToString: renders every integer in plain digits. The host switches to exponent notation from 1e21 on, which the component's zone numbers, degrees and minutes never reach.
- **The geolocation subscription** and its options, the map markers, panning, follow mode, elevation and the position error handler.
- Track.RecordFix: assumes the map exists. In the component the whole track update sits inside the handler's `if (mapRef.current)` (line 222). The map is created by the effect at lines 116-142, which runs before the geolocation effect subscribes (line 273), so every fix the handler receives passes that guard.
- Track.RecordFix: takes the tracking flag current at the fix. In the component the handler reads the flag captured when the subscription was made. The subscription is re-made whenever the flag changes, so the two agree after that re-subscription. The accuracy of a fix is a number here, as the geolocation interface types it.
- **Search side effects.** The marker, the map fly-to and the closing of the search box are left out. When no map exists the component does nothing for a found pair; the model reports the pair.
- **The exception handler** in the search (lines 569-572). No step of the model can throw.
- **localStorage.** Loading and saving of the coordinate system, the waypoints and the track is left out.
- **Other user-facing side effects.** The model leaves out:
  - the clipboard copy and its feedback timeout;
  - the file download;
  - the menus and the JSX.

  A declined `confirm` and a cancelled `prompt` are modelled as parameters.
- Export.GpxOf: inserts names verbatim, without XML escaping, as the template does. The model does not state what an XML reader would make of a name holding markup.
- Export.TxtColumnIsUtmText: assumes that parsing a `toFixed(4)` text and rendering it again with `toFixed(4)` gives the same text; the host's number parsing and rendering are parameters, so this is stated as a precondition rather than proved.
- Export.TxtLineFields: assumes that the name, the locale time text and the `toFixed` output hold no tab. A name with a tab gives a line with more fields.
- Export.ExportTxtLines: the read-back assumes no line holds a line feed. A name with a line feed splits its line.
- Text.Split: covers the one-character separators the component uses, not general `split`.

=== FILE: base.dfy ===
/**
  Shared vocabulary of the GPS tracker model: the optional value the
  component writes as `T | null`, a position, and the host functions the
  component reaches through JavaScript's number, string and date built-ins.
 */
module Base {

  /** A value that may be absent (`null` or `NaN` in the component). */
  datatype Option<+T> = None | Some(value: T)

  /** A latitude/longitude pair in decimal degrees. */
  datatype Coordinates = Coordinates(lat: real, lng: real)

  /**
    The platform rendering and parsing functions the component calls, left
    abstract: they are IEEE-754 and locale behaviour.
      - `fixed(x, d)`     : `x.toFixed(d)`
      - `numberText(x)`   : the text a template literal gives a number
      - `parseNumber(s)`  : `parseFloat(s)`, `None` when the result is `NaN`
      - `isoTime(ms)`     : `new Date(ms).toISOString()`
      - `localeTime(ms)`  : `new Date(ms).toLocaleString()`
   */
  datatype Platform = Platform(
    fixed: (real, nat) -> string,
    numberText: real -> string,
    parseNumber: string -> Option<real>,
    isoTime: int -> string,
    localeTime: int -> string
  )
}

=== FILE: codec.dfy ===
/**
  The coordinate codec of the component: UTM zone, latitude band and the
  false easting/northing offsets of `convertToUTM`, the degrees-minutes-
  seconds decomposition of `convertToDMS`, and the display dispatch of
  `formatCoordinates`. The transverse Mercator series itself is a parameter.
 */
module Codec {
  import opened Base
  import opened Text

  // ----- zone number and central meridian -----

  /** UTM zone number of a longitude: `floor((lng + 180) / 6) + 1`. */
  function ZoneNumber(lng: real): int {
    ((lng + 180.0) / 6.0).Floor + 1
  }

  /** Longitude, in degrees, of the central meridian of a zone. */
  function CentralMeridian(zone: int): real {
    ((zone - 1) * 6 - 180 + 3) as real
  }

  /** Every longitude of the half-open range [-180, 180) lies in one of zones 1..60. */
  lemma ZoneRange(lng: real)
    requires -180.0 <= lng < 180.0
    ensures 1 <= ZoneNumber(lng) <= 60
  {
  }

  /** The formula has no wrap-around: the antimeridian itself falls in a 61st zone. */
  lemma ZoneAtAntimeridian()
    ensures ZoneNumber(180.0) == 61
  {
  }

  /** A longitude is within three degrees (west inclusive) of its zone's central meridian. */
  lemma WithinZone(lng: real)
    ensures -3.0 <= lng - CentralMeridian(ZoneNumber(lng)) < 3.0
  {
    var k := ((lng + 180.0) / 6.0).Floor;
    assert k as real <= (lng + 180.0) / 6.0 < k as real + 1.0;
    assert CentralMeridian(ZoneNumber(lng)) == 6.0 * k as real - 177.0;
  }

  // ----- latitude band -----

  /** The band letters, south to north: 21 letters, no `A`, `I`, `O`, `Y` or `Z`. */
  const BandLetters: string := "BCDEFGHJKLMNPQRSTUVWX"

  /** Latitude band letter as the component's threshold table assigns it. */
  function ZoneLetter(lat: real): (c: char)
    ensures 'B' <= c <= 'X' && c != 'I' && c != 'O'
  {
    if lat >= 84.0 then 'X'
    else if lat >= 72.0 then 'W'
    else if lat >= 64.0 then 'V'
    else if lat >= 56.0 then 'U'
    else if lat >= 48.0 then 'T'
    else if lat >= 40.0 then 'S'
    else if lat >= 32.0 then 'R'
    else if lat >= 24.0 then 'Q'
    else if lat >= 16.0 then 'P'
    else if lat >= 8.0 then 'N'
    else if lat >= 0.0 then 'M'
    else if lat >= -8.0 then 'L'
    else if lat >= -16.0 then 'K'
    else if lat >= -24.0 then 'J'
    else if lat >= -32.0 then 'H'
    else if lat >= -40.0 then 'G'
    else if lat >= -48.0 then 'F'
    else if lat >= -56.0 then 'E'
    else if lat >= -64.0 then 'D'
    else if lat >= -72.0 then 'C'
    else 'B'
  }

  /**
    Position in `BandLetters` of the band holding `lat`, by 8-degree
    arithmetic: block `floor(lat / 8)` for [-72, 72), one band for [72, 84),
    one open band on each side.
   */
  function BandIndex(lat: real): (k: nat)
    ensures k < |BandLetters|
  {
    if lat >= 84.0 then 20
    else if lat >= 72.0 then 19
    else if lat < -72.0 then 0
    else (lat / 8.0).Floor + 10
  }

  /** The band letters are distinct and in increasing character order. */
  lemma BandLettersOrdered()
    ensures |BandLetters| == 21
    ensures forall i, j :: 0 <= i < j < |BandLetters| ==> BandLetters[i] < BandLetters[j]
    ensures 'A' !in BandLetters && 'I' !in BandLetters && 'O' !in BandLetters
  {
    forall i, j | 0 <= i < j < |BandLetters| ensures BandLetters[i] < BandLetters[j] {
      BandLettersRise(i, j);
    }
    BandLettersSkip();
  }

  lemma BandLettersSkip()
    ensures 'A' !in BandLetters && 'I' !in BandLetters && 'O' !in BandLetters
  {
    BandLettersSkipOne('A');
    BandLettersSkipOne('I');
    BandLettersSkipOne('O');
  }

  lemma BandLettersSkipOne(c: char)
    requires c == 'A' || c == 'I' || c == 'O'
    ensures c !in BandLetters
  {
    forall k | 0 <= k < |BandLetters| ensures BandLetters[k] != c {
    }
  }

  /** Consecutive band letters increase. */
  lemma BandLettersStep(i: nat)
    requires i + 1 < |BandLetters|
    ensures BandLetters[i] < BandLetters[i + 1]
  {
  }

  lemma {:induction false} BandLettersRise(i: nat, j: nat)
    requires i < j < |BandLetters|
    ensures BandLetters[i] < BandLetters[j]
    decreases j - i
  {
    BandLettersStep(j - 1);
    if i < j - 1 {
      BandLettersRise(i, j - 1);
    }
  }

  /** The threshold table agrees with the 8-degree band arithmetic. */
  lemma ZoneLetterByBand(lat: real)
    ensures ZoneLetter(lat) == BandLetters[BandIndex(lat)]
  {
    if -72.0 <= lat < 72.0 {
      var k := (lat / 8.0).Floor;
      assert k as real <= lat / 8.0 < k as real + 1.0;
      assert -9 <= k <= 8;
    }
  }

  /** Each 8-degree block [8k, 8k + 8) for -9 <= k <= 8 carries one fixed letter. */
  lemma BandOfBlock(k: int, lat: real)
    requires -9 <= k <= 8
    requires 8.0 * k as real <= lat < 8.0 * k as real + 8.0
    ensures ZoneLetter(lat) == BandLetters[k + 10]
  {
    ZoneLetterByBand(lat);
    assert (lat / 8.0).Floor == k;
  }

  /** The band letter never decreases as latitude increases. */
  lemma ZoneLetterMonotone(a: real, b: real)
    requires a <= b
    ensures ZoneLetter(a) <= ZoneLetter(b)
  {
    ZoneLetterByBand(a);
    ZoneLetterByBand(b);
    assert BandIndex(a) <= BandIndex(b) by {
      if -72.0 <= a && b < 72.0 {
        assert (a / 8.0).Floor <= (b / 8.0).Floor;
      }
    }
    BandLettersOrdered();
  }

  /** The two open bands: `X` exactly from 84 north, `B` exactly south of -72; never `A`, `I` or `O`. */
  lemma ZoneLetterEnds(lat: real)
    ensures ZoneLetter(lat) == 'X' <==> lat >= 84.0
    ensures ZoneLetter(lat) == 'B' <==> lat < -72.0
    ensures ZoneLetter(lat) in BandLetters
    ensures ZoneLetter(lat) !in "AIO"
  {
  }

  /**
    Standard UTM lettering, where `C` is [-80, -72), `N` starts at the
    equator and `X` is [72, 84]; defined for -80 <= lat <= 84.
   */
  function StandardBandIndex(lat: real): (k: nat)
    requires -80.0 <= lat <= 84.0
    ensures 1 <= k < |BandLetters|
  {
    if lat >= 72.0 then 20 else (lat / 8.0).Floor + 11
  }

  /** Within [-80, 84) the component's letter is the one before the standard letter. */
  lemma ZoneLetterShiftedFromStandard(lat: real)
    requires -80.0 <= lat < 84.0
    ensures ZoneLetter(lat) == BandLetters[StandardBandIndex(lat) - 1]
  {
    ZoneLetterByBand(lat);
    if lat < 72.0 {
      var k := (lat / 8.0).Floor;
      assert k as real <= lat / 8.0 < k as real + 1.0;
    }
  }

  /** New York's latitude gets `S` where standard UTM says `T`. */
  lemma NewYorkBand()
    ensures ZoneLetter(40.7128) == 'S'
    ensures BandLetters[StandardBandIndex(40.7128)] == 'T'
  {
    assert (40.7128 / 8.0).Floor == 5;
  }

  // ----- projection and false origin -----

  /**
    The transverse Mercator series of the component: given the latitude
    and the longitude's offset from the zone's central meridian (both in
    degrees), the easting before the false easting and the northing before
    the false northing.
   */
  type Series = (real, real) -> (real, real)

  const FalseEasting: real := 500000.0
  const FalseNorthing: real := 10000000.0

  /** A UTM position before its easting and northing are rendered. */
  datatype UtmPosition = UtmPosition(zone: int, letter: char, easting: real, northing: real)

  /** The projection as `convertToUTM` computes it, before `toFixed(4)`. */
  function Project(lat: real, lng: real, series: Series): (p: UtmPosition)
    ensures p.zone == ZoneNumber(lng) && p.letter == ZoneLetter(lat)
    ensures Southern(p) <==> lat < 0.0
  {
    var zone := ZoneNumber(lng);
    var raw := series(lat, lng - CentralMeridian(zone));
    UtmPosition(
      zone,
      ZoneLetter(lat),
      raw.0 + FalseEasting,
      if lat < 0.0 then raw.1 + FalseNorthing else raw.1)
  }

  /**
    Under the component's lettering, a position is southern exactly when
    its letter precedes `M`.
   */
  predicate Southern(p: UtmPosition) {
    p.letter < 'M'
  }

  /** The series output, recovered from a position by removing the false origin. */
  function RemoveFalseOrigin(p: UtmPosition): (real, real) {
    (p.easting - FalseEasting, if Southern(p) then p.northing - FalseNorthing else p.northing)
  }

  /**
    The false northing is added exactly for southern latitudes, which the
    letter records; the false easting is always added. Removing the false
    origin gives back the series output at the zone's central meridian.
   */
  lemma ProjectFalseOrigin(lat: real, lng: real, series: Series)
    ensures var p := Project(lat, lng, series);
      && p.zone == ZoneNumber(lng)
      && p.letter == ZoneLetter(lat)
      && (Southern(p) <==> lat < 0.0)
      && RemoveFalseOrigin(p) == series(lat, lng - CentralMeridian(p.zone))
  {
  }

  /**
    The standard inverse rule "southern when the letter precedes `N`" does
    not fit the shifted lettering: just north of the equator the letter is
    `M`, although no false northing was added.
   */
  lemma StandardHemisphereRuleMisfits(lng: real, series: Series)
    ensures var p := Project(4.0, lng, series);
      && p.letter == 'M' && p.letter < 'N'
      && p.northing == series(4.0, lng - CentralMeridian(p.zone)).1
  {
  }

  /** `convertToUTM`'s result: easting and northing rendered with `toFixed(4)`. */
  datatype UtmCoordinates = UtmCoordinates(zone: int, letter: char, easting: string, northing: string)

  function ConvertToUtm(lat: real, lng: real, series: Series, platform: Platform): (u: UtmCoordinates)
    ensures u.zone == ZoneNumber(lng) && u.letter == ZoneLetter(lat)
  {
    var p := Project(lat, lng, series);
    UtmCoordinates(p.zone, p.letter, platform.fixed(p.easting, 4), platform.fixed(p.northing, 4))
  }

  // ----- degrees, minutes, seconds -----

  datatype Axis = Latitude | Longitude

  /** Degrees and minutes are whole; seconds are kept before their `toFixed(2)` rendering. */
  datatype Dms = Dms(degrees: int, minutes: int, seconds: real, direction: char)

  function Abs(x: real): real {
    if x < 0.0 then -x else x
  }

  /** The unsigned angle a DMS triple denotes. */
  function Magnitude(d: Dms): real {
    d.degrees as real + d.minutes as real / 60.0 + d.seconds / 3600.0
  }

  predicate WellFormedDms(d: Dms) {
    d.degrees >= 0 && 0 <= d.minutes < 60 && 0.0 <= d.seconds < 60.0
  }

  /** `convertToDMS` before rendering: the decomposition of `|x|` and the hemisphere letter. */
  function ToDms(x: real, axis: Axis): (d: Dms)
    ensures WellFormedDms(d)
    ensures Magnitude(d) == Abs(x)
    ensures d.direction in (if axis == Latitude then "NS" else "EW")
    ensures d.direction in "NE" <==> x >= 0.0
  {
    var a := Abs(x);
    var degrees := a.Floor;
    var minutesRaw := (a - degrees as real) * 60.0;
    var minutes := minutesRaw.Floor;
    var seconds := (minutesRaw - minutes as real) * 60.0;
    var direction :=
      if axis == Latitude then (if x >= 0.0 then 'N' else 'S')
      else (if x >= 0.0 then 'E' else 'W');
    Dms(degrees, minutes, seconds, direction)
  }

  /** The signed angle a DMS value denotes: negative for `S` and `W`. */
  function DmsValue(d: Dms): real {
    if d.direction == 'S' || d.direction == 'W' then -Magnitude(d) else Magnitude(d)
  }

  /** Reading a DMS value back gives the decimal degrees it came from. */
  lemma DmsRoundTrip(x: real, axis: Axis)
    ensures DmsValue(ToDms(x, axis)) == x
  {
  }

  /** A well-formed DMS triple for `|x|` is the one `ToDms` computes: the decomposition is unique. */
  lemma DmsUnique(x: real, axis: Axis, d: Dms)
    requires WellFormedDms(d)
    requires Magnitude(d) == Abs(x)
    ensures d.degrees == ToDms(x, axis).degrees
    ensures d.minutes == ToDms(x, axis).minutes
    ensures d.seconds == ToDms(x, axis).seconds
  {
    var e := ToDms(x, axis);
    var fraction := d.minutes as real / 60.0 + d.seconds / 3600.0;
    assert 0.0 <= fraction < 1.0;
    assert d.degrees == Abs(x).Floor;
    var minutesRaw := (Abs(x) - d.degrees as real) * 60.0;
    assert minutesRaw == d.minutes as real + d.seconds / 60.0;
    assert d.minutes == minutesRaw.Floor;
  }

  /** `convertToDMS`: `D°M'S"X` with the seconds rendered by `toFixed(2)`. */
  function DmsText(x: real, axis: Axis, platform: Platform): (t: string)
    ensures |t| > 0 && IsDigit(t[0]) && t[|t| - 1] == ToDms(x, axis).direction
  {
    var d := ToDms(x, axis);
    IntToString(d.degrees) + "°" + IntToString(d.minutes) + "'"
      + platform.fixed(d.seconds, 2) + "\"" + [d.direction]
  }

  /**
    The DMS text opens with the decimal digits of the whole degrees of
    `|x|`, then `°`, and closes with the hemisphere letter.
   */
  lemma DmsTextShape(x: real, axis: Axis, platform: Platform)
    ensures var t := DmsText(x, axis, platform);
      var k := |IntToString(Abs(x).Floor)|;
      && k < |t|
      && AllDigits(t[..k])
      && DigitsValue(t[..k]) == Abs(x).Floor
      && t[k] == '°'
      && t[|t| - 1] == ToDms(x, axis).direction
  {
    var d := ToDms(x, axis);
    var t := DmsText(x, axis, platform);
    var deg := IntToString(d.degrees);
    assert t == deg + ("°" + IntToString(d.minutes) + "'" + platform.fixed(d.seconds, 2) + "\"" + [d.direction]);
    assert t[..|deg|] == deg;
  }

  /**
    The DMS text reads back field by field: the whole degrees in decimal
    digits, `°`, the whole minutes in decimal digits, `'`, the seconds as
    `toFixed(2)` renders them, `"` and the hemisphere letter.
   */
  lemma {:induction false} DmsTextFields(x: real, axis: Axis, platform: Platform)
    ensures var d := ToDms(x, axis);
      var t := DmsText(x, axis, platform);
      var k := |IntToString(d.degrees)|;
      var m := |IntToString(d.minutes)|;
      var f := platform.fixed(d.seconds, 2);
      && |t| == k + m + |f| + 4
      && AllDigits(t[..k]) && DigitsValue(t[..k]) == d.degrees
      && t[k] == '°'
      && AllDigits(t[k + 1..k + 1 + m]) && DigitsValue(t[k + 1..k + 1 + m]) == d.minutes
      && t[k + 1 + m] == '\''
      && t[k + 2 + m..k + 2 + m + |f|] == f
      && t[|t| - 2] == '"'
      && t[|t| - 1] == d.direction
  {
    var d := ToDms(x, axis);
    var t := DmsText(x, axis, platform);
    var deg := IntToString(d.degrees);
    var min := IntToString(d.minutes);
    var f := platform.fixed(d.seconds, 2);
    var k := |deg|;
    var m := |min|;
    assert d.degrees >= 0 && d.minutes >= 0;
    assert t == deg + "°" + min + "'" + f + "\"" + [d.direction];
    assert t[..k] == deg;
    assert t[k + 1..k + 1 + m] == min;
    assert t[k + 2 + m..k + 2 + m + |f|] == f;
  }

  // ----- display dispatch -----

  /** The values the coordinate-system selector stores. */
  const DecimalSystem: string := "dd"
  const DmsSystem: string := "dms"
  const UtmSystem: string := "utm"

  const WaitingForGps: string := "Waiting for GPS..."

  function DecimalText(c: Coordinates, platform: Platform): string {
    platform.fixed(c.lat, 6) + "°, " + platform.fixed(c.lng, 6) + "°"
  }

  function UtmText(c: Coordinates, series: Series, platform: Platform): string {
    var u := ConvertToUtm(c.lat, c.lng, series, platform);
    IntToString(u.zone) + [u.letter] + " " + u.easting + "E " + u.northing + "N"
  }

  /** `formatCoordinates`: the text for a position under the selected coordinate system. */
  function FormatCoordinates(coords: Option<Coordinates>, system: string, series: Series, platform: Platform): (text: string)
    ensures coords.None? ==> text == WaitingForGps
  {
    match coords
    case None => WaitingForGps
    case Some(c) =>
      if system == DecimalSystem then DecimalText(c, platform)
      else if system == DmsSystem then DmsText(c.lat, Latitude, platform) + " " + DmsText(c.lng, Longitude, platform)
      else if system == UtmSystem then UtmText(c, series, platform)
      else DecimalText(c, platform)
  }

  /**
    No position renders the placeholder; decimal degrees are both values to
    six places with `°`; the DMS text is the latitude's then the
    longitude's; an unrecognised system renders as decimal degrees; the
    UTM text is zone, letter, easting and northing.
   */
  lemma FormatDispatch(coords: Option<Coordinates>, system: string, series: Series, platform: Platform)
    ensures coords.None? ==> FormatCoordinates(coords, system, series, platform) == WaitingForGps
    ensures coords.Some? ==>
      (FormatCoordinates(coords, DecimalSystem, series, platform)
        == platform.fixed(coords.value.lat, 6) + "°, " + platform.fixed(coords.value.lng, 6) + "°")
    ensures coords.Some? ==>
      (FormatCoordinates(coords, DmsSystem, series, platform)
        == DmsText(coords.value.lat, Latitude, platform) + " " + DmsText(coords.value.lng, Longitude, platform))
    ensures system != DmsSystem && system != UtmSystem
      ==> FormatCoordinates(coords, system, series, platform) == FormatCoordinates(coords, DecimalSystem, series, platform)
    ensures coords.Some? ==>
      var c := coords.value;
      var p := Project(c.lat, c.lng, series);
      FormatCoordinates(coords, UtmSystem, series, platform)
        == IntToString(ZoneNumber(c.lng)) + [ZoneLetter(c.lat)] + " "
           + platform.fixed(p.easting, 4) + "E " + platform.fixed(p.northing, 4) + "N"
  {
  }

  /**
    The UTM text of a position in the longitude range starts with the
    zone's decimal digits followed directly by the band letter.
   */
  lemma UtmTextLeadsWithZone(c: Coordinates, series: Series, platform: Platform)
    requires -180.0 <= c.lng <= 180.0
    ensures var t := UtmText(c, series, platform);
      var k := |IntToString(ZoneNumber(c.lng))|;
      && k < |t|
      && AllDigits(t[..k])
      && DigitsValue(t[..k]) == ZoneNumber(c.lng)
      && t[k] == ZoneLetter(c.lat)
  {
    var u := ConvertToUtm(c.lat, c.lng, series, platform);
    var z := IntToString(u.zone);
    var t := UtmText(c, series, platform);
    assert t == z + ([u.letter] + " " + u.easting + "E " + u.northing + "N");
    assert t[..|z|] == z;
  }
}

=== FILE: export.dfy ===
/**
  The two exports: a GPX 1.1 document holding one waypoint per saved point
  and, when the track is non-empty, one track of one segment; and a
  tab-separated text listing of the saved points in UTM. The document is
  built as a value first and then written out with the component's exact
  template text.
 */
module Export {
  import opened Base
  import opened Text
  import opened Codec
  import opened Waypoints
  import opened Track

  const XmlDeclaration: string := "<?xml version=\"1.0\" encoding=\"UTF-8\"?>"
  const GpxVersion: string := "1.1"
  const GpxCreator: string := "GPS Tracker"
  const GpxNamespace: string := "http://www.topografix.com/GPX/1/1"

  /** A `wpt` element: coordinates as attribute text, a name and an ISO-8601 time. */
  datatype Waypoint = Waypoint(lat: string, lon: string, name: string, time: string)

  /** A `trkpt` element: coordinates only, no time. */
  datatype TrackPointElement = TrackPointElement(lat: string, lon: string)

  /** A `trk` element with its single `trkseg`. */
  datatype TrackElement = TrackElement(name: string, segment: seq<TrackPointElement>)

  datatype GpxDocument = GpxDocument(waypoints: seq<Waypoint>, track: Option<TrackElement>)

  function WaypointOf(p: SavedPoint, platform: Platform): Waypoint {
    Waypoint(platform.numberText(p.lat), platform.numberText(p.lng), p.name, platform.isoTime(p.timestamp))
  }

  function TrackPointOf(t: TrackPoint, platform: Platform): TrackPointElement {
    TrackPointElement(platform.numberText(t.0), platform.numberText(t.1))
  }

  /** `Track ` followed by the date part (before the `T`) of the export time in ISO form. */
  function TrackName(now: int, platform: Platform): string {
    "Track " + Split(platform.isoTime(now), 'T')[0]
  }

  /**
    The document `exportGPX` writes: one waypoint per saved point in list
    order carrying that point's name, coordinates and time, and a track
    exactly when there are track points, one `trkpt` per point in order.
   */
  function GpxOf(points: seq<SavedPoint>, track: seq<TrackPoint>, now: int, platform: Platform): (g: GpxDocument)
    ensures |g.waypoints| == |points|
    ensures forall i :: 0 <= i < |points| ==>
      && g.waypoints[i].name == points[i].name
      && g.waypoints[i].lat == platform.numberText(points[i].lat)
      && g.waypoints[i].lon == platform.numberText(points[i].lng)
      && g.waypoints[i].time == platform.isoTime(points[i].timestamp)
    ensures g.track.Some? <==> |track| > 0
    ensures g.track.Some? ==>
      && g.track.value.name == TrackName(now, platform)
      && |g.track.value.segment| == |track|
      && forall i :: 0 <= i < |track| ==>
           g.track.value.segment[i] == TrackPointElement(platform.numberText(track[i].0), platform.numberText(track[i].1))
  {
    var waypoints := seq(|points|, i requires 0 <= i < |points| => WaypointOf(points[i], platform));
    if |track| == 0 then
      GpxDocument(waypoints, None)
    else
      GpxDocument(waypoints, Some(TrackElement(TrackName(now, platform), SegmentOf(track, platform))))
  }

  /** The `trkpt` elements of the track, one per point in order. */
  function SegmentOf(track: seq<TrackPoint>, platform: Platform): seq<TrackPointElement> {
    seq(|track|, i requires 0 <= i < |track| => TrackPointOf(track[i], platform))
  }

  /** Saving one more point adds one waypoint at the end, whatever the track. */
  lemma GpxAppendPoint(points: seq<SavedPoint>, p: SavedPoint, track: seq<TrackPoint>, other: seq<TrackPoint>,
                       now: int, platform: Platform)
    ensures GpxOf(points + [p], track, now, platform).waypoints
         == GpxOf(points, other, now, platform).waypoints + [WaypointOf(p, platform)]
  {
    var a := GpxOf(points + [p], track, now, platform).waypoints;
    var b := GpxOf(points, other, now, platform).waypoints + [WaypointOf(p, platform)];
    assert |a| == |b|;
    forall i | 0 <= i < |a| ensures a[i] == b[i] {
      if i < |points| {
        assert (points + [p])[i] == points[i];
      }
    }
  }

  // ----- the template text -----

  function WaypointText(w: Waypoint): string {
    "\n  <wpt lat=\"" + w.lat + "\" lon=\"" + w.lon + "\">\n    <name>" + w.name
      + "</name>\n    <time>" + w.time + "</time>\n  </wpt>"
  }

  function TrackPointText(t: TrackPointElement): string {
    "\n      <trkpt lat=\"" + t.lat + "\" lon=\"" + t.lon + "\"></trkpt>"
  }

  function WaypointsText(ws: seq<Waypoint>): string {
    Concat(seq(|ws|, i requires 0 <= i < |ws| => WaypointText(ws[i])))
  }

  function SegmentText(ts: seq<TrackPointElement>): string {
    Concat(seq(|ts|, i requires 0 <= i < |ts| => TrackPointText(ts[i])))
  }

  function TrackText(t: Option<TrackElement>): string {
    match t
    case None => ""
    case Some(e) =>
      "\n  <trk>\n    <name>" + e.name + "</name>\n    <trkseg>\n      " + SegmentText(e.segment)
        + "\n    </trkseg>\n  </trk>"
  }

  const GpxOpenTag: string :=
    "<gpx version=\"" + GpxVersion + "\" creator=\"" + GpxCreator + "\" xmlns=\"" + GpxNamespace + "\">"

  /** Everything before the waypoint texts: the declaration line, the root tag line and the indent. */
  const GpxHead: string := XmlDeclaration + "\n" + GpxOpenTag + "\n  "

  function GpxText(g: GpxDocument): string {
    GpxHead + (WaypointsText(g.waypoints) + ("\n  " + (TrackText(g.track) + "\n</gpx>")))
  }

  /** `exportGPX`: the text of the file it offers for download. */
  function ExportGpx(points: seq<SavedPoint>, track: seq<TrackPoint>, now: int, platform: Platform): (text: string)
    ensures |GpxHead| <= |text| && text[..|GpxHead|] == GpxHead
  {
    GpxTextFrame(GpxOf(points, track, now, platform));
    GpxText(GpxOf(points, track, now, platform))
  }

  /** The text of a list of waypoints is the texts of its parts one after another. */
  lemma WaypointsTextAppend(a: seq<Waypoint>, b: seq<Waypoint>)
    ensures WaypointsText(a + b) == WaypointsText(a) + WaypointsText(b)
  {
    var sa := seq(|a|, i requires 0 <= i < |a| => WaypointText(a[i]));
    var sb := seq(|b|, i requires 0 <= i < |b| => WaypointText(b[i]));
    var sab := seq(|a + b|, i requires 0 <= i < |a + b| => WaypointText((a + b)[i]));
    assert sab == sa + sb;
    ConcatAppend(sa, sb);
  }

  /**
    The written file: the XML declaration and the `gpx` root with version
    1.1, creator and namespace; a file with no track has no `trk` text, and
    saving one more point inserts exactly that point's `wpt` text after the
    others.
   */
  lemma GpxTextShape(points: seq<SavedPoint>, p: SavedPoint, track: seq<TrackPoint>, now: int, platform: Platform)
    ensures var text := ExportGpx(points, track, now, platform);
      && |GpxHead| <= |text| && text[..|GpxHead|] == GpxHead
      && (|track| == 0 ==>
            text == GpxHead + WaypointsText(GpxOf(points, track, now, platform).waypoints) + "\n  \n</gpx>")
    ensures var ws := GpxOf(points, track, now, platform).waypoints;
      WaypointsText(GpxOf(points + [p], track, now, platform).waypoints)
        == WaypointsText(ws) + WaypointText(WaypointOf(p, platform))
  {
    GpxTextFrame(GpxOf(points, track, now, platform));
    var ws := GpxOf(points, track, now, platform).waypoints;
    var w := WaypointOf(p, platform);
    GpxAppendPoint(points, p, track, track, now, platform);
    WaypointsTextAppend(ws, [w]);
    WaypointsTextOne(w);
  }

  /** The frame of the written document around the waypoint and track texts. */
  lemma GpxTextFrame(g: GpxDocument)
    ensures var text := GpxText(g);
      && |GpxHead| <= |text| && text[..|GpxHead|] == GpxHead
      && (g.track.None? ==> text == GpxHead + WaypointsText(g.waypoints) + "\n  \n</gpx>")
  {
    if g.track.None? {
      assert "\n  " + ("" + "\n</gpx>") == "\n  \n</gpx>";
    }
  }

  /**
    A file with track points carries, after the waypoint texts, one `trk`
    element named after the export date holding the segment text.
   */
  lemma GpxTrackText(points: seq<SavedPoint>, track: seq<TrackPoint>, now: int, platform: Platform)
    ensures |track| > 0 ==>
      ExportGpx(points, track, now, platform)
        == GpxHead + WaypointsText(GpxOf(points, track, now, platform).waypoints)
           + "\n  \n  <trk>\n    <name>" + TrackName(now, platform) + "</name>\n    <trkseg>\n      "
           + SegmentText(SegmentOf(track, platform)) + "\n    </trkseg>\n  </trk>\n</gpx>"
  {
    if |track| > 0 {
      var g := GpxOf(points, track, now, platform);
      assert g.track == Some(TrackElement(TrackName(now, platform), SegmentOf(track, platform)));
      TrackFrame(GpxHead, WaypointsText(g.waypoints), TrackName(now, platform), SegmentText(SegmentOf(track, platform)));
    }
  }

  /** The template pieces around the track element, regrouped; only reassociates concatenation and joins adjacent literals. */
  lemma TrackFrame(head: string, ws: string, name: string, segment: string)
    ensures head + (ws + ("\n  " + (("\n  <trk>\n    <name>" + name + "</name>\n    <trkseg>\n      " + segment
              + "\n    </trkseg>\n  </trk>") + "\n</gpx>")))
         == head + ws + "\n  \n  <trk>\n    <name>" + name + "</name>\n    <trkseg>\n      "
              + segment + "\n    </trkseg>\n  </trk>\n</gpx>"
  {
    var open := "\n  <trk>\n    <name>";
    var close := "\n    </trkseg>\n  </trk>";
    Regroup(head, ws, "\n  ", open, name, "</name>\n    <trkseg>\n      ", segment, close, "\n</gpx>");
    assert "\n  " + open == "\n  \n  <trk>\n    <name>";
    assert close + "\n</gpx>" == "\n    </trkseg>\n  </trk>\n</gpx>";
  }

  /** Reassociation of a concatenation of nine strings, and nothing more. */
  lemma Regroup(x: string, y: string, z: string, p: string, n: string, q: string, s: string, r: string, e: string)
    ensures x + (y + (z + ((p + n + q + s + r) + e))) == x + y + (z + p) + n + q + s + (r + e)
  {
  }

  /** The segment text is one `trkpt` text per track point: none for no points, and one more point appends exactly its text. */
  lemma SegmentTextAppend(track: seq<TrackPoint>, t: TrackPoint, platform: Platform)
    ensures SegmentText(SegmentOf([], platform)) == ""
    ensures SegmentText(SegmentOf(track + [t], platform))
      == SegmentText(SegmentOf(track, platform)) + TrackPointText(TrackPointOf(t, platform))
  {
    var last := TrackPointText(TrackPointOf(t, platform));
    var a := seq(|track|, i requires 0 <= i < |track| => TrackPointText(SegmentOf(track, platform)[i]));
    var b := seq(|track| + 1, i requires 0 <= i < |track| + 1 => TrackPointText(SegmentOf(track + [t], platform)[i]));
    assert b == a + [last] by {
      forall i | 0 <= i < |track| ensures b[i] == a[i] {
        assert (track + [t])[i] == track[i];
      }
    }
    ConcatAppend(a, [last]);
    assert Concat([last]) == last by {
      assert Concat([last]) == [last][0] + Concat([last][1..]);
      assert [last][1..] == [];
    }
  }

  lemma WaypointsTextOne(w: Waypoint)
    ensures WaypointsText([w]) == WaypointText(w)
  {
    var one := seq(1, i requires 0 <= i < 1 => WaypointText([w][i]));
    assert one == [WaypointText(w)];
    assert Concat(one) == one[0] + Concat(one[1..]);
    assert one[1..] == [];
  }

  // ----- the text export -----

  /** `parseFloat(s).toFixed(4)`; `NaN` prints as `NaN`. */
  function Refixed(s: string, platform: Platform): string {
    match platform.parseNumber(s)
    case Some(v) => platform.fixed(v, 4)
    case None => "NaN"
  }

  /** The middle column: zone number, band letter, easting with `E` and northing with `N`. */
  function UtmColumn(u: UtmCoordinates, platform: Platform): string {
    IntToString(u.zone) + [u.letter] + " " + Refixed(u.easting, platform) + "E " + Refixed(u.northing, platform) + "N"
  }

  /** One line: name, UTM position and local time, separated by tabs. */
  function TxtLine(p: SavedPoint, series: Series, platform: Platform): string {
    p.name + "\t" + UtmColumn(ConvertToUtm(p.lat, p.lng, series, platform), platform) + "\t" + platform.localeTime(p.timestamp)
  }

  function TxtLines(points: seq<SavedPoint>, series: Series, platform: Platform): seq<string> {
    seq(|points|, i requires 0 <= i < |points| => TxtLine(points[i], series, platform))
  }

  /** `exportTXT`: the lines joined by line feeds, with no trailing line feed. */
  function ExportTxt(points: seq<SavedPoint>, series: Series, platform: Platform): (text: string)
    ensures |points| == 0 <==> text == ""
  {
    Join(TxtLines(points, series, platform), '\n')
  }

  /**
    The listing reads back line by line: no points give the empty text, and
    when no line holds a line feed, splitting the text on line feeds gives
    one line per saved point in list order; one more point adds one line at
    the end.
   */
  lemma ExportTxtLines(points: seq<SavedPoint>, p: SavedPoint, series: Series, platform: Platform)
    ensures points == [] ==> ExportTxt(points, series, platform) == ""
    ensures |points| > 0 && (forall i :: 0 <= i < |points| ==> '\n' !in TxtLine(points[i], series, platform))
      ==> Split(ExportTxt(points, series, platform), '\n') == TxtLines(points, series, platform)
    ensures |points| > 0 ==>
      ExportTxt(points + [p], series, platform) == ExportTxt(points, series, platform) + "\n" + TxtLine(p, series, platform)
  {
    var lines := TxtLines(points, series, platform);
    if |points| > 0 {
      if forall i :: 0 <= i < |points| ==> '\n' !in TxtLine(points[i], series, platform) {
        assert forall i :: 0 <= i < |lines| ==> '\n' !in lines[i];
        SplitJoin(lines, '\n');
      }
      TxtLinesAppend(points, p, series, platform);
      JoinAppend(lines, TxtLine(p, series, platform), '\n');
    }
  }

  lemma TxtLinesAppend(points: seq<SavedPoint>, p: SavedPoint, series: Series, platform: Platform)
    ensures TxtLines(points + [p], series, platform) == TxtLines(points, series, platform) + [TxtLine(p, series, platform)]
  {
    var a := TxtLines(points + [p], series, platform);
    var b := TxtLines(points, series, platform) + [TxtLine(p, series, platform)];
    forall i | 0 <= i < |a| ensures a[i] == b[i] {
      if i < |points| {
        assert (points + [p])[i] == points[i];
      }
    }
  }

  /** The UTM column holds no tab and leads with the zone digits and then the band letter. */
  lemma UtmColumnShape(u: UtmCoordinates, platform: Platform)
    requires u.letter != '\t'
    requires forall x: real, d: nat :: '\t' !in platform.fixed(x, d)
    ensures '\t' !in UtmColumn(u, platform)
    ensures var z := IntToString(u.zone);
      var f := UtmColumn(u, platform);
      |z| < |f| && f[..|z|] == z && f[|z|] == u.letter
  {
    var z := IntToString(u.zone);
    var tail := [u.letter] + " " + Refixed(u.easting, platform) + "E " + Refixed(u.northing, platform) + "N";
    assert UtmColumn(u, platform) == z + tail;
    IntToStringChars(u.zone);
    assert '\t' !in tail;
  }

  /**
    The UTM column of a saved point is the UTM display text of its position:
    zone, letter, then easting with `E` and northing with `N` as
    `toFixed(4)` renders them, provided the host reads a `toFixed(4)` text
    back to a number that renders to the same text.
   */
  lemma {:induction false} TxtColumnIsUtmText(p: SavedPoint, series: Series, platform: Platform)
    requires forall x: real ::
      && platform.parseNumber(platform.fixed(x, 4)).Some?
      && platform.fixed(platform.parseNumber(platform.fixed(x, 4)).value, 4) == platform.fixed(x, 4)
    ensures UtmColumn(ConvertToUtm(p.lat, p.lng, series, platform), platform)
      == FormatCoordinates(Some(Coordinates(p.lat, p.lng)), UtmSystem, series, platform)
  {
    var pr := Project(p.lat, p.lng, series);
    FormatDispatch(Some(Coordinates(p.lat, p.lng)), UtmSystem, series, platform);
    assert Refixed(platform.fixed(pr.easting, 4), platform) == platform.fixed(pr.easting, 4);
    assert Refixed(platform.fixed(pr.northing, 4), platform) == platform.fixed(pr.northing, 4);
  }

  /**
    A line splits on tabs into exactly three fields: the name, the UTM
    column (zone digits, then the band letter of the point's latitude) and
    the local time, provided the name, the time text and the number text
    hold no tab.
   */
  lemma TxtLineFields(p: SavedPoint, series: Series, platform: Platform)
    requires '\t' !in p.name && '\t' !in platform.localeTime(p.timestamp)
    requires forall x: real, d: nat :: '\t' !in platform.fixed(x, d)
    ensures var u := ConvertToUtm(p.lat, p.lng, series, platform);
      && u.zone == ZoneNumber(p.lng) && u.letter == ZoneLetter(p.lat)
      && Split(TxtLine(p, series, platform), '\t') == [p.name, UtmColumn(u, platform), platform.localeTime(p.timestamp)]
  {
    var u := ConvertToUtm(p.lat, p.lng, series, platform);
    assert u.letter == ZoneLetter(p.lat);
    ZoneLetterEnds(p.lat);
    UtmColumnShape(u, platform);
    SplitThree(p.name, UtmColumn(u, platform), platform.localeTime(p.timestamp), '\t');
  }
}

=== FILE: indicator.dfy ===
/**
  The accuracy indicator: a coloured dot for the reported accuracy radius
  in metres, red while no reading exists.
 */
module Indicator {
  import opened Base

  datatype Light = Red | Yellow | Green

  /** Signal quality as a rank: a smaller radius never ranks lower. */
  function Rank(l: Light): nat {
    match l
    case Red => 0
    case Yellow => 1
    case Green => 2
  }

  /** The colour cascade of the indicator: none, then at most 5 m, then at most 10 m. */
  function AccuracyLight(accuracy: Option<real>): (l: Light)
    ensures l == Green <==> accuracy.Some? && accuracy.value <= 5.0
    ensures l == Yellow <==> accuracy.Some? && 5.0 < accuracy.value <= 10.0
    ensures l == Red <==> accuracy.None? || accuracy.value > 10.0
  {
    match accuracy
    case None => Red
    case Some(a) =>
      if a <= 5.0 then Green
      else if a <= 10.0 then Yellow
      else Red
  }

  /** A tighter radius never shows a worse colour. */
  lemma AccuracyLightMonotone(a: real, b: real)
    requires a <= b
    ensures Rank(AccuracyLight(Some(b))) <= Rank(AccuracyLight(Some(a)))
  {
  }
}

=== FILE: search.dfy ===
/**
  The coordinate search box (`searchCoordinates`): an ordered classifier
  of the query text. A comma makes it a decimal pair; otherwise text shaped
  like a UTM reference, then text holding a degree sign, are recognised and
  reported as unsupported; anything else is invalid.
 */
module Search {
  import opened Base
  import opened Text

  // ----- the UTM-shaped pattern -----
  //
  // The component tests `/\d+[A-Z]\s+\d+(\.\d+)?E\s+\d+(\.\d+)?N/i`, an
  // unanchored, case-insensitive pattern. Every repeated class in it is
  // followed by a character outside that class, so a match starting at a
  // given position is determined by maximal runs; `MatchMarks` follows them.

  datatype CharClass = Digits | Spaces

  predicate InClass(c: char, cls: CharClass) {
    match cls
    case Digits => IsDigit(c)
    case Spaces => IsSpace(c)
  }

  /** Every character of `s[i..j]` is in `cls`, and there is at least one. */
  predicate ClassRun(s: string, i: nat, j: nat, cls: CharClass) {
    i < j <= |s| && forall k :: i <= k < j ==> InClass(s[k], cls)
  }

  /** End of the maximal run of `cls` characters starting at `i`. */
  function RunEnd(s: string, i: nat, cls: CharClass): (j: nat)
    requires i <= |s|
    ensures i <= j <= |s|
    decreases |s| - i
  {
    if i < |s| && InClass(s[i], cls) then RunEnd(s, i + 1, cls) else i
  }

  /** `RunEnd` stops at the first character outside the class. */
  lemma {:induction false} RunEndMaximal(s: string, i: nat, cls: CharClass)
    requires i <= |s|
    ensures var j := RunEnd(s, i, cls);
      && (forall k :: i <= k < j ==> InClass(s[k], cls))
      && (j < |s| ==> !InClass(s[j], cls))
    decreases |s| - i
  {
    if i < |s| && InClass(s[i], cls) {
      RunEndMaximal(s, i + 1, cls);
    }
  }

  /** A run that stops before a character outside its class is the maximal run. */
  lemma RunEndOfRun(s: string, i: nat, j: nat, cls: CharClass)
    requires ClassRun(s, i, j, cls)
    requires j < |s| && !InClass(s[j], cls)
    ensures RunEnd(s, i, cls) == j
  {
    RunEndMaximal(s, i, cls);
  }

  /** `c` matches the pattern letter `upper` under the `i` flag. */
  predicate IsLetterIgnoringCase(c: char, upper: char)
    requires 'A' <= upper <= 'Z'
  {
    c == upper || c as int == upper as int + 32
  }

  // ----- the pattern, stated declaratively -----

  /** `\d+(\.\d+)?` spans `s[i..j]`, its integer part ending at `dot` (at `j` without a fraction). */
  predicate NumberSpan(s: string, i: nat, dot: nat, j: nat) {
    || (dot == j && ClassRun(s, i, j, Digits))
    || (ClassRun(s, i, dot, Digits) && dot < |s| && s[dot] == '.' && ClassRun(s, dot + 1, j, Digits))
  }

  /**
    Boundaries of one match: the zone digits end at `letter`; the spaces
    after it end at `east`; the easting's integer part ends at `eastDot`
    and the easting at `eastUnit`, where `E` stands; the spaces after it end
    at `north`; the northing's integer part ends at `northDot` and the
    northing at `northUnit`, where `N` stands.
   */
  datatype Marks = Marks(letter: nat, east: nat, eastDot: nat, eastUnit: nat,
                         north: nat, northDot: nat, northUnit: nat)

  /** The text from `i` has the shape `\d+[A-Z]\s+\d+(\.\d+)?E\s+\d+(\.\d+)?N`, ignoring case, with these boundaries. */
  predicate Shape(s: string, i: nat, m: Marks) {
    && ClassRun(s, i, m.letter, Digits) && m.letter < |s| && IsAsciiLetter(s[m.letter])
    && ClassRun(s, m.letter + 1, m.east, Spaces)
    && NumberSpan(s, m.east, m.eastDot, m.eastUnit)
    && m.eastUnit < |s| && IsLetterIgnoringCase(s[m.eastUnit], 'E')
    && ClassRun(s, m.eastUnit + 1, m.north, Spaces)
    && NumberSpan(s, m.north, m.northDot, m.northUnit)
    && m.northUnit < |s| && IsLetterIgnoringCase(s[m.northUnit], 'N')
  }

  // ----- the matcher -----

  /** Where a matched number's integer part ends and where its unit letter stands. */
  datatype NumberMatch = NumberMatch(dot: nat, unit: nat)

  /**
    Matches `\d+(\.\d+)?U` at `i`, `U` being `unit` in either case: where
    the integer part ends and where the unit letter stands.
   */
  function NumberMarks(s: string, i: nat, unit: char): (r: Option<NumberMatch>)
    requires i <= |s|
    requires 'A' <= unit <= 'Z'
    ensures r.Some? ==> i < r.value.unit < |s|
  {
    var j := RunEnd(s, i, Digits);
    if j == i || j == |s| then None
    else if IsLetterIgnoringCase(s[j], unit) then Some(NumberMatch(j, j))
    else if s[j] == '.' then
      var f := RunEnd(s, j + 1, Digits);
      if f > j + 1 && f < |s| && IsLetterIgnoringCase(s[f], unit) then Some(NumberMatch(j, f)) else None
    else None
  }

  /** A number span followed by its unit letter is what `NumberMarks` finds. */
  lemma NumberMarksComplete(s: string, i: nat, dot: nat, j: nat, unit: char)
    requires 'A' <= unit <= 'Z'
    requires NumberSpan(s, i, dot, j)
    requires j < |s| && IsLetterIgnoringCase(s[j], unit)
    ensures NumberMarks(s, i, unit) == Some(NumberMatch(dot, j))
  {
    if dot == j {
      RunEndOfRun(s, i, j, Digits);
    } else {
      RunEndOfRun(s, i, dot, Digits);
      RunEndOfRun(s, dot + 1, j, Digits);
    }
  }

  /**
    Where the matcher stands in the pattern: at the zone digits; at the
    easting, the zone letter standing at `a` and the easting starting at
    `b`; or at the northing, once the easting is found too.
   */
  datatype Phase = AtZone | AtEasting(a: nat, b: nat) | AtNorthing(a: nat, b: nat, east: NumberMatch)

  function PhasesLeft(p: Phase): nat {
    match p
    case AtZone => 2
    case AtEasting(_, _) => 1
    case AtNorthing(_, _, _) => 0
  }

  /** The rest of the match starting at `i`, from phase `p` on. */
  function MatchFrom(s: string, i: nat, p: Phase): Option<Marks>
    requires i <= |s|
    decreases PhasesLeft(p)
  {
    match p
    case AtZone =>
      var a := RunEnd(s, i, Digits);
      if !(i < a < |s| && IsAsciiLetter(s[a])) then None
      else
        var b := RunEnd(s, a + 1, Spaces);
        if b == a + 1 then None else MatchFrom(s, i, AtEasting(a, b))
    case AtEasting(a, b) =>
      if b > |s| then None
      else
        var east := NumberMarks(s, b, 'E');
        if east.None? then None else MatchFrom(s, i, AtNorthing(a, b, east.value))
    case AtNorthing(a, b, east) =>
      if east.unit >= |s| then None
      else
        var d := RunEnd(s, east.unit + 1, Spaces);
        if d == east.unit + 1 then None
        else
          var north := NumberMarks(s, d, 'N');
          if north.None? then None
          else Some(Marks(a, b, east.dot, east.unit, d, north.value.dot, north.value.unit))
  }

  /** The boundaries of the match starting at `i`, if the pattern matches there. */
  function MatchMarks(s: string, i: nat): Option<Marks>
    requires i <= |s|
  {
    MatchFrom(s, i, AtZone)
  }

  /** What `NumberMarks` finds is a number span followed by its unit letter. */
  lemma NumberMarksSound(s: string, i: nat, unit: char)
    requires i <= |s|
    requires 'A' <= unit <= 'Z'
    requires NumberMarks(s, i, unit).Some?
    ensures var r := NumberMarks(s, i, unit).value;
      && NumberSpan(s, i, r.dot, r.unit)
      && IsLetterIgnoringCase(s[r.unit], unit)
  {
    RunEndMaximal(s, i, Digits);
    var j := RunEnd(s, i, Digits);
    if !IsLetterIgnoringCase(s[j], unit) {
      RunEndMaximal(s, j + 1, Digits);
    }
  }

  /** What the matcher finds has the declared shape. */
  lemma MatchMarksSound(s: string, i: nat)
    requires i <= |s|
    requires MatchMarks(s, i).Some?
    ensures Shape(s, i, MatchMarks(s, i).value)
  {
    var m := MatchMarks(s, i).value;
    var a := RunEnd(s, i, Digits);
    ZoneLetterGuard(s, i, a, m);
    var b := RunEnd(s, a + 1, Spaces);
    ZoneBlankGuard(s, i, a, b, m);
    ZoneGuard(s, i, a, b, m);
    ZoneRuns(s, i, a, b);
    EastingSound(s, i, a, b, m);
  }

  /** The zone digits and the blanks after the letter are maximal runs. */
  lemma ZoneRuns(s: string, i: nat, a: nat, b: nat)
    requires i <= |s| && a < |s|
    requires a == RunEnd(s, i, Digits) && b == RunEnd(s, a + 1, Spaces)
    requires i < a && a + 1 < b
    ensures ClassRun(s, i, a, Digits) && ClassRun(s, a + 1, b, Spaces)
  {
    RunEndMaximal(s, i, Digits);
    RunEndMaximal(s, a + 1, Spaces);
  }

  /** What the matcher finds from the easting phase on has the declared shape from there. */
  lemma EastingSound(s: string, i: nat, a: nat, b: nat, m: Marks)
    requires i <= |s| && b <= |s|
    requires MatchFrom(s, i, AtEasting(a, b)) == Some(m)
    ensures m.letter == a && m.east == b
    ensures NumberSpan(s, m.east, m.eastDot, m.eastUnit)
    ensures m.eastUnit < |s| && IsLetterIgnoringCase(s[m.eastUnit], 'E')
    ensures ClassRun(s, m.eastUnit + 1, m.north, Spaces)
    ensures NumberSpan(s, m.north, m.northDot, m.northUnit)
    ensures m.northUnit < |s| && IsLetterIgnoringCase(s[m.northUnit], 'N')
  {
    EastingGuard(s, i, a, b, m);
    NumberMarksSound(s, b, 'E');
    NorthingSound(s, i, a, b, NumberMarks(s, b, 'E').value, m);
  }

  /** What the matcher finds in the northing phase has the declared shape from there. */
  lemma NorthingSound(s: string, i: nat, a: nat, b: nat, east: NumberMatch, m: Marks)
    requires i <= |s|
    requires MatchFrom(s, i, AtNorthing(a, b, east)) == Some(m)
    ensures m == Marks(a, b, east.dot, east.unit, m.north, m.northDot, m.northUnit)
    ensures east.unit < |s|
    ensures ClassRun(s, east.unit + 1, m.north, Spaces)
    ensures NumberSpan(s, m.north, m.northDot, m.northUnit)
    ensures m.northUnit < |s| && IsLetterIgnoringCase(s[m.northUnit], 'N')
  {
    NorthingGuard(s, i, a, b, east, m);
    RunEndMaximal(s, east.unit + 1, Spaces);
    NumberMarksSound(s, m.north, 'N');
  }

  /** A match starts with zone digits followed by a letter. */
  lemma ZoneLetterGuard(s: string, i: nat, a: nat, m: Marks)
    requires i <= |s|
    requires MatchMarks(s, i) == Some(m)
    requires a == RunEnd(s, i, Digits)
    ensures i < a < |s| && IsAsciiLetter(s[a])
  {
  }

  /** A match has at least one blank after the zone letter. */
  lemma ZoneBlankGuard(s: string, i: nat, a: nat, b: nat, m: Marks)
    requires i < a < |s|
    requires MatchMarks(s, i) == Some(m)
    requires a == RunEnd(s, i, Digits)
    requires b == RunEnd(s, a + 1, Spaces)
    ensures a + 1 < b
  {
  }

  /** A match passes the zone phase on to the easting phase. */
  lemma ZoneGuard(s: string, i: nat, a: nat, b: nat, m: Marks)
    requires i < a < |s|
    requires MatchMarks(s, i) == Some(m)
    requires a == RunEnd(s, i, Digits)
    requires b == RunEnd(s, a + 1, Spaces)
    ensures MatchFrom(s, i, AtEasting(a, b)) == Some(m)
  {
  }

  /** A match passes the easting phase: the easting and its `E` are found. */
  lemma EastingGuard(s: string, i: nat, a: nat, b: nat, m: Marks)
    requires i <= |s| && b <= |s|
    requires MatchFrom(s, i, AtEasting(a, b)) == Some(m)
    ensures NumberMarks(s, b, 'E').Some?
    ensures MatchFrom(s, i, AtNorthing(a, b, NumberMarks(s, b, 'E').value)) == Some(m)
  {
  }

  /** A match passes the northing phase, which fixes all its boundaries. */
  lemma NorthingGuard(s: string, i: nat, a: nat, b: nat, east: NumberMatch, m: Marks)
    requires i <= |s|
    requires MatchFrom(s, i, AtNorthing(a, b, east)) == Some(m)
    ensures east.unit < |s|
    ensures var d := RunEnd(s, east.unit + 1, Spaces);
      && d != east.unit + 1
      && NumberMarks(s, d, 'N') == Some(NumberMatch(m.northDot, m.northUnit))
      && m == Marks(a, b, east.dot, east.unit, d, m.northDot, m.northUnit)
  {
  }

  /** Text of the declared shape is matched, with exactly its boundaries. */
  lemma MatchMarksComplete(s: string, i: nat, m: Marks)
    requires Shape(s, i, m)
    ensures MatchMarks(s, i) == Some(m)
  {
    ShapeStages(s, i, m);
    MatchStages(s, i, m);
  }

  /** Each boundary of a declared shape is where the matcher's stage stops. */
  lemma ShapeStages(s: string, i: nat, m: Marks)
    requires Shape(s, i, m)
    ensures i <= |s| && m.eastUnit < |s|
    ensures RunEnd(s, i, Digits) == m.letter && i < m.letter < |s| && IsAsciiLetter(s[m.letter])
    ensures RunEnd(s, m.letter + 1, Spaces) == m.east && m.east != m.letter + 1
    ensures NumberMarks(s, m.east, 'E') == Some(NumberMatch(m.eastDot, m.eastUnit))
    ensures RunEnd(s, m.eastUnit + 1, Spaces) == m.north && m.north != m.eastUnit + 1
    ensures NumberMarks(s, m.north, 'N') == Some(NumberMatch(m.northDot, m.northUnit))
  {
    ShapeZone(s, i, m);
    ShapeEasting(s, m);
    ShapeNorthing(s, m);
  }

  lemma ShapeZone(s: string, i: nat, m: Marks)
    requires Shape(s, i, m)
    ensures RunEnd(s, i, Digits) == m.letter
    ensures RunEnd(s, m.letter + 1, Spaces) == m.east
  {
    RunEndOfRun(s, i, m.letter, Digits);
    DigitIsNotSpace(s[m.east]);
    RunEndOfRun(s, m.letter + 1, m.east, Spaces);
  }

  lemma ShapeEasting(s: string, m: Marks)
    requires m.east <= |s| && m.eastUnit < |s| && IsLetterIgnoringCase(s[m.eastUnit], 'E')
    requires NumberSpan(s, m.east, m.eastDot, m.eastUnit)
    ensures NumberMarks(s, m.east, 'E') == Some(NumberMatch(m.eastDot, m.eastUnit))
  {
    NumberMarksComplete(s, m.east, m.eastDot, m.eastUnit, 'E');
  }

  lemma ShapeNorthing(s: string, m: Marks)
    requires m.eastUnit < |s| && ClassRun(s, m.eastUnit + 1, m.north, Spaces)
    requires m.northUnit < |s| && IsLetterIgnoringCase(s[m.northUnit], 'N')
    requires NumberSpan(s, m.north, m.northDot, m.northUnit)
    ensures RunEnd(s, m.eastUnit + 1, Spaces) == m.north
    ensures NumberMarks(s, m.north, 'N') == Some(NumberMatch(m.northDot, m.northUnit))
  {
    DigitIsNotSpace(s[m.north]);
    RunEndOfRun(s, m.eastUnit + 1, m.north, Spaces);
    NumberMarksComplete(s, m.north, m.northDot, m.northUnit, 'N');
  }

  /** The three matcher stages compose once each stage's own result is known. */
  lemma MatchStages(s: string, i: nat, m: Marks)
    requires i <= |s| && m.eastUnit < |s|
    requires RunEnd(s, i, Digits) == m.letter && i < m.letter < |s| && IsAsciiLetter(s[m.letter])
    requires RunEnd(s, m.letter + 1, Spaces) == m.east && m.east != m.letter + 1
    requires NumberMarks(s, m.east, 'E') == Some(NumberMatch(m.eastDot, m.eastUnit))
    requires RunEnd(s, m.eastUnit + 1, Spaces) == m.north && m.north != m.eastUnit + 1
    requires NumberMarks(s, m.north, 'N') == Some(NumberMatch(m.northDot, m.northUnit))
    ensures MatchMarks(s, i) == Some(m)
  {
    var east := NumberMatch(m.eastDot, m.eastUnit);
    NorthingStage(s, i, m.letter, m.east, east, m.north, NumberMatch(m.northDot, m.northUnit));
    EastingStage(s, i, m.letter, m.east, east);
    ZoneStage(s, i, m.letter, m.east);
  }

  lemma ZoneStage(s: string, i: nat, a: nat, b: nat)
    requires i <= |s|
    requires RunEnd(s, i, Digits) == a && i < a < |s| && IsAsciiLetter(s[a])
    requires RunEnd(s, a + 1, Spaces) == b && b != a + 1
    ensures MatchMarks(s, i) == MatchFrom(s, i, AtEasting(a, b))
  {
  }

  lemma EastingStage(s: string, i: nat, a: nat, b: nat, east: NumberMatch)
    requires i <= |s| && b <= |s|
    requires NumberMarks(s, b, 'E') == Some(east)
    ensures east.unit < |s|
    ensures MatchFrom(s, i, AtEasting(a, b)) == MatchFrom(s, i, AtNorthing(a, b, east))
  {
  }

  lemma NorthingStage(s: string, i: nat, a: nat, b: nat, east: NumberMatch, d: nat, north: NumberMatch)
    requires i <= |s| && east.unit < |s|
    requires RunEnd(s, east.unit + 1, Spaces) == d && d != east.unit + 1
    requires NumberMarks(s, d, 'N') == Some(north)
    ensures MatchFrom(s, i, AtNorthing(a, b, east)) == Some(Marks(a, b, east.dot, east.unit, d, north.dot, north.unit))
  {
  }

  lemma DigitIsNotSpace(c: char)
    requires IsDigit(c)
    ensures !IsSpace(c)
  {
  }

  /** `RegExp.prototype.test` with the UTM-shaped pattern: a match starts somewhere. */
  predicate UtmLike(s: string) {
    exists i: nat | i <= |s| :: MatchMarks(s, i).Some?
  }

  /** The pattern test succeeds exactly when some position starts text of the declared shape. */
  lemma UtmLikeIffShape(s: string)
    ensures UtmLike(s) <==> exists i: nat, m: Marks :: Shape(s, i, m)
  {
    if UtmLike(s) {
      var i: nat :| i <= |s| && MatchMarks(s, i).Some?;
      MatchMarksSound(s, i);
    }
    if exists i: nat, m: Marks :: Shape(s, i, m) {
      var i: nat, m: Marks :| Shape(s, i, m);
      MatchMarksComplete(s, i, m);
    }
  }

  /** Text without an `E` or `e` is never UTM-shaped. */
  lemma NoEastingUnitNotUtmLike(s: string)
    requires 'E' !in s && 'e' !in s
    ensures !UtmLike(s)
  {
    if UtmLike(s) {
      var i: nat :| i <= |s| && MatchMarks(s, i).Some?;
      MatchMarksSound(s, i);
    }
  }

  // ----- the classifier -----

  /** What a search produces: a position to fly to, or the feedback the component shows. */
  datatype SearchOutcome = Found(lat: real, lng: real) | UnsupportedUtm | UnsupportedDms | Invalid

  /** `searchCoordinates` on the query text; `parseNumber` stands for `parseFloat`. */
  function SearchCoordinates(query: string, platform: Platform): (r: SearchOutcome)
    ensures r.Found? ==> ',' in query && Count(query, ',') == 1
    ensures ',' in query ==> r.Found? || r == Invalid
  {
    if ',' in query then DecimalPair(Split(query, ','), platform)
    else if UtmLike(query) then UnsupportedUtm
    else if '°' in query then UnsupportedDms
    else Invalid
  }

  /** The comma branch: exactly two pieces, each parsing once trimmed. */
  function DecimalPair(parts: seq<string>, platform: Platform): SearchOutcome {
    if |parts| != 2 then Invalid
    else
      match (platform.parseNumber(Trim(parts[0])), platform.parseNumber(Trim(parts[1])))
      case (Some(lat), Some(lng)) => Found(lat, lng)
      case _ => Invalid
  }

  /** The feedback message the component shows; none when it moves the map. */
  function Feedback(outcome: SearchOutcome): (message: Option<string>)
    ensures message.None? <==> outcome.Found?
  {
    match outcome
    case Found(_, _) => None
    case UnsupportedUtm => Some("UTM format search is not supported yet")
    case UnsupportedDms => Some("DMS format search is not supported yet")
    case Invalid => Some("Invalid format. Use: lat, lng")
  }

  /** The trimmed text before the first comma. */
  function BeforeComma(query: string): string
    requires ',' in query
  {
    Trim(query[..IndexOf(query, ',')])
  }

  /** The trimmed text after the first comma. */
  function AfterComma(query: string): string
    requires ',' in query
  {
    Trim(query[IndexOf(query, ',') + 1..])
  }

  /**
    With a comma the query is a decimal pair or invalid, whatever else it
    holds: found exactly when there is one comma and the trimmed text on
    each side parses, with no range check on the numbers.
   */
  lemma SearchWithComma(query: string, platform: Platform)
    requires ',' in query
    ensures var r := SearchCoordinates(query, platform);
      r.Found? || r == Invalid
    ensures var r := SearchCoordinates(query, platform);
      var lat := platform.parseNumber(BeforeComma(query));
      var lng := platform.parseNumber(AfterComma(query));
      r.Found? <==> Count(query, ',') == 1 && lat.Some? && lng.Some?
    ensures var r := SearchCoordinates(query, platform);
      var lat := platform.parseNumber(BeforeComma(query));
      var lng := platform.parseNumber(AfterComma(query));
      r.Found? ==> r == Found(lat.value, lng.value)
  {
    var parts := Split(query, ',');
    assert SearchCoordinates(query, platform) == DecimalPair(parts, platform);
    if Count(query, ',') == 1 {
      SplitOne(query, ',');
      var k := IndexOf(query, ',');
      assert parts == [query[..k], query[k + 1..]];
      PairOfTwo(query[..k], query[k + 1..], platform);
      assert Trim(query[..k]) == BeforeComma(query);
      assert Trim(query[k + 1..]) == AfterComma(query);
    } else {
      assert |parts| != 2;
    }
  }

  /** Two pieces make a pair exactly when both parse once trimmed. */
  lemma PairOfTwo(before: string, after: string, platform: Platform)
    ensures var lat := platform.parseNumber(Trim(before));
      var lng := platform.parseNumber(Trim(after));
      DecimalPair([before, after], platform) == if lat.Some? && lng.Some? then Found(lat.value, lng.value) else Invalid
  {
  }

  /** Without a comma: UTM shape first, then a degree sign, else invalid. */
  lemma SearchWithoutComma(query: string, platform: Platform)
    requires ',' !in query
    ensures var r := SearchCoordinates(query, platform);
      && !r.Found?
      && (r == UnsupportedUtm <==> UtmLike(query))
      && (r == UnsupportedDms <==> !UtmLike(query) && '°' in query)
      && (r == Invalid <==> !UtmLike(query) && '°' !in query)
  {
  }

  /** A pair far outside the latitude/longitude ranges is still found. */
  lemma SearchHasNoRangeCheck(platform: Platform)
    requires platform.parseNumber("100") == Some(100.0)
    requires platform.parseNumber("200") == Some(200.0)
    ensures SearchCoordinates("100, 200", platform) == Found(100.0, 200.0)
  {
    var q := "100, 200";
    PairQueryParts();
    SearchWithComma(q, platform);
  }

  /** The pieces of the query `100, 200` around its single comma, trimmed. */
  lemma PairQueryParts()
    ensures ',' in "100, 200"
    ensures Count("100, 200", ',') == 1
    ensures BeforeComma("100, 200") == "100" && AfterComma("100, 200") == "200"
  {
    PairQueryComma();
    PairQueryBefore();
    PairQueryAfter();
  }

  // PairQueryComma, PairQueryBefore, PairQueryAfter and TrimBlankExample only evaluate
  // the literal query piece by piece, one small fact per lemma.
  lemma PairQueryComma()
    ensures ',' in "100, 200"
    ensures Count("100, 200", ',') == 1
    ensures IndexOf("100, 200", ',') == 3
  {
    var q := "100, 200";
    assert q[3] == ',';
    assert multiset(q) == multiset{'1', '0', '0', ',', ' ', '2', '0', '0'};
  }

  lemma PairQueryBefore()
    requires ',' in "100, 200" && IndexOf("100, 200", ',') == 3
    ensures BeforeComma("100, 200") == "100"
  {
    assert "100, 200"[..3] == "100";
    TrimUnpadded("100");
  }

  lemma PairQueryAfter()
    requires ',' in "100, 200" && IndexOf("100, 200", ',') == 3
    ensures AfterComma("100, 200") == "200"
  {
    assert "100, 200"[4..] == " 200";
    TrimBlankExample();
  }

  lemma TrimBlankExample()
    ensures Trim(" 200") == "200"
  {
    TrimLeadingBlank(" 200");
    assert " 200"[1..] == "200";
    TrimUnpadded("200");
  }

  /** A UTM reference is recognised and reported as unsupported. */
  lemma SearchUtmExample(platform: Platform)
    ensures SearchCoordinates("18T 585628E 4511322N", platform) == UnsupportedUtm
  {
    var q := "18T 585628E 4511322N";
    assert ',' !in q;
    var m := Marks(2, 4, 10, 10, 12, 19, 19);
    UtmExampleShape();
    MatchMarksComplete(q, 0, m);
  }

  /** The example reference has the declared shape, starting at its first character. */
  lemma UtmExampleShape()
    ensures Shape("18T 585628E 4511322N", 0, Marks(2, 4, 10, 10, 12, 19, 19))
  {
    UtmExampleZone();
    UtmExampleEasting();
    UtmExampleNorthing();
  }

  // UtmExampleZone, UtmExampleEasting and UtmExampleNorthing only unfold the
  // declared shape on the literal reference, one stage per lemma.
  lemma UtmExampleZone()
    ensures var q := "18T 585628E 4511322N";
      ClassRun(q, 0, 2, Digits) && IsAsciiLetter(q[2]) && ClassRun(q, 3, 4, Spaces)
  {
  }

  lemma UtmExampleEasting()
    ensures var q := "18T 585628E 4511322N";
      NumberSpan(q, 4, 10, 10) && IsLetterIgnoringCase(q[10], 'E') && ClassRun(q, 11, 12, Spaces)
  {
  }

  lemma UtmExampleNorthing()
    ensures var q := "18T 585628E 4511322N";
      NumberSpan(q, 12, 19, 19) && IsLetterIgnoringCase(q[19], 'N')
  {
  }

  /** A query without a digit, a comma or a degree sign is invalid. */
  lemma SearchInvalidExample(platform: Platform)
    ensures SearchCoordinates("not a coord", platform) == Invalid
  {
    var q := "not a coord";
    assert ',' !in q && '°' !in q && 'E' !in q && 'e' !in q;
    NoEastingUnitNotUtmLike(q);
  }

  /** A degrees-minutes-seconds query is recognised and reported as unsupported. */
  lemma SearchDmsExample(platform: Platform)
    ensures SearchCoordinates("40°42'46\"N 74°00'21\"W", platform) == UnsupportedDms
  {
    var q := "40°42'46\"N 74°00'21\"W";
    assert q[2] == '°';
    assert ',' !in q && 'E' !in q && 'e' !in q;
    NoEastingUnitNotUtmLike(q);
  }
}

=== FILE: text.dfy ===
/**
  The JavaScript string built-ins the component relies on, over `string`
  (a sequence of Unicode scalar values, where JavaScript has UTF-16 code
  units; trimming, splitting on `,`, tab or line feed, the pattern's
  character classes and the search for `°` cannot tell the two apart):
  `trim`, `split` and `join` with a one-character separator, and the
  decimal text of an integer-valued number.
 */
module Text {

  predicate IsDigit(c: char) { '0' <= c <= '9' }

  predicate IsAsciiLetter(c: char) { 'A' <= c <= 'Z' || 'a' <= c <= 'z' }

  /**
    The ECMAScript WhiteSpace and LineTerminator code points (sections
    12.2 and 12.3 of ECMA-262): the set `String.prototype.trim` removes and
    the regular-expression class `\s` matches.
   */
  predicate IsSpace(c: char) {
    var n := c as int;
    || 0x9 <= n <= 0xD          // tab, line feed, vertical tab, form feed, carriage return
    || n == 0x20 || n == 0xA0 || n == 0x1680
    || 0x2000 <= n <= 0x200A
    || n == 0x2028 || n == 0x2029 || n == 0x202F || n == 0x205F || n == 0x3000 || n == 0xFEFF
  }

  predicate AllDigits(s: string) {
    forall i :: 0 <= i < |s| ==> IsDigit(s[i])
  }

  predicate AllSpace(s: string) {
    forall i :: 0 <= i < |s| ==> IsSpace(s[i])
  }

  // ----- trim -----

  /** Number of white-space characters at the start of `s`. */
  function LeadingSpace(s: string): (n: nat)
    ensures n <= |s| && AllSpace(s[..n])
    ensures n < |s| ==> !IsSpace(s[n])
  {
    if |s| > 0 && IsSpace(s[0]) then
      var m := LeadingSpace(s[1..]);
      1 + m
    else
      0
  }

  /** Number of white-space characters at the end of `s`. */
  function TrailingSpace(s: string): (n: nat)
    ensures n <= |s| && AllSpace(s[|s| - n..])
    ensures n < |s| ==> !IsSpace(s[|s| - n - 1])
  {
    if |s| > 0 && IsSpace(s[|s| - 1]) then
      var m := TrailingSpace(s[..|s| - 1]);
      1 + m
    else
      0
  }

  /**
    `String.prototype.trim`: the slice of `s` left once the white space at
    both ends is removed; it neither starts nor ends with white space.
   */
  function Trim(s: string): (r: string)
    ensures var i := LeadingSpace(s);
      && i + |r| <= |s|
      && r == s[i..i + |r|]
      && AllSpace(s[i + |r|..])
    ensures |r| > 0 ==> !IsSpace(r[0]) && !IsSpace(r[|r| - 1])
  {
    var t := s[LeadingSpace(s)..];
    t[..|t| - TrailingSpace(t)]
  }

  /** Trimming twice is trimming once. */
  lemma TrimIdempotent(s: string)
    ensures Trim(Trim(s)) == Trim(s)
  {
    var r := Trim(s);
    if |r| > 0 {
      assert LeadingSpace(r) == 0;
      assert TrailingSpace(r) == 0;
    }
  }

  /** Text that neither starts nor ends with white space is its own trim. */
  lemma TrimUnpadded(s: string)
    requires |s| > 0 && !IsSpace(s[0]) && !IsSpace(s[|s| - 1])
    ensures Trim(s) == s
  {
    assert LeadingSpace(s) == 0;
    assert TrailingSpace(s) == 0;
  }

  /** A leading blank is dropped by trimming. */
  lemma TrimLeadingBlank(s: string)
    requires |s| > 0 && IsSpace(s[0])
    ensures Trim(s) == Trim(s[1..])
  {
    assert LeadingSpace(s) == 1 + LeadingSpace(s[1..]);
    assert s[LeadingSpace(s)..] == s[1..][LeadingSpace(s[1..])..];
  }

  // ----- split and join -----

  /** Number of occurrences of `c` in `s`. */
  function Count(s: string, c: char): nat {
    multiset(s)[c]
  }

  /** Position of the first occurrence of `c` in `s`. */
  function IndexOf(s: string, c: char): (k: nat)
    requires c in s
    ensures k < |s| && s[k] == c && c !in s[..k]
  {
    if s[0] == c then 0 else 1 + IndexOf(s[1..], c)
  }

  /** The first occurrence of `c` in `a + [c] + b` is just after `a` when `a` holds none. */
  lemma IndexOfAfter(a: string, c: char, b: string)
    requires c !in a
    ensures c in a + [c] + b
    ensures IndexOf(a + [c] + b, c) == |a|
  {
    assert (a + [c] + b)[|a|] == c;
  }

  /** `Array.prototype.join` with a one-character separator; `""` for no parts. */
  function Join(parts: seq<string>, sep: char): (s: string)
    ensures |parts| > 0 && (forall i :: 0 <= i < |parts| ==> sep !in parts[i])
      ==> Count(s, sep) == |parts| - 1
  {
    if |parts| == 0 then ""
    else if |parts| == 1 then parts[0]
    else parts[0] + [sep] + Join(parts[1..], sep)
  }

  /**
    `String.prototype.split` with a one-character separator: the pieces of
    `s` between its occurrences of `sep`, one more piece than separators.
   */
  function Split(s: string, sep: char): (parts: seq<string>)
    ensures |parts| == Count(s, sep) + 1
    ensures forall i :: 0 <= i < |parts| ==> sep !in parts[i]
    decreases |s|
  {
    if sep !in s then
      [s]
    else
      var k := IndexOf(s, sep);
      var rest := Split(s[k + 1..], sep);
      assert s == s[..k] + [sep] + s[k + 1..];
      assert multiset(s) == multiset(s[..k]) + multiset{sep} + multiset(s[k + 1..]) by {
        calc {
          multiset(s);
          multiset(s[..k] + [sep] + s[k + 1..]);
        }
      }
      assert ([s[..k]] + rest)[1..] == rest;
      [s[..k]] + rest
  }

  /** Joining the pieces of a split with the separator gives the string back. */
  lemma {:induction false} JoinSplit(s: string, sep: char)
    ensures Join(Split(s, sep), sep) == s
    decreases |s|
  {
    if sep in s {
      var k := IndexOf(s, sep);
      var rest := Split(s[k + 1..], sep);
      JoinSplit(s[k + 1..], sep);
      SplitAtFirst(s, sep);
      assert ([s[..k]] + rest)[1..] == rest;
      assert s == s[..k] + [sep] + s[k + 1..];
    }
  }

  /** Splitting a join of separator-free parts gives the parts back. */
  lemma {:induction false} SplitJoin(parts: seq<string>, sep: char)
    requires |parts| > 0
    requires forall i :: 0 <= i < |parts| ==> sep !in parts[i]
    ensures Split(Join(parts, sep), sep) == parts
    decreases |parts|
  {
    if |parts| > 1 {
      SplitJoinStep(parts, sep);
      SplitJoin(parts[1..], sep);
      assert parts == [parts[0]] + parts[1..];
    }
  }

  /** The first part of a join comes back as the first piece of its split. */
  lemma SplitJoinStep(parts: seq<string>, sep: char)
    requires |parts| > 1 && sep !in parts[0]
    ensures Split(Join(parts, sep), sep) == [parts[0]] + Split(Join(parts[1..], sep), sep)
  {
    var rest := Join(parts[1..], sep);
    var s := Join(parts, sep);
    var k := |parts[0]|;
    assert sep in s && IndexOf(s, sep) == k && s[..k] == parts[0] && s[k + 1..] == rest by {
      assert s == parts[0] + [sep] + rest;
      IndexOfAfter(parts[0], sep, rest);
    }
    SplitAtFirst(s, sep);
  }

  /** A string holding the separator splits into the text before its first occurrence and the split of the rest. */
  lemma SplitAtFirst(s: string, sep: char)
    requires sep in s
    ensures var k := IndexOf(s, sep); Split(s, sep) == [s[..k]] + Split(s[k + 1..], sep)
  {
  }

  /** Joining one more part adds the separator and that part at the end. */
  lemma {:induction false} JoinAppend(parts: seq<string>, last: string, sep: char)
    requires |parts| > 0
    ensures Join(parts + [last], sep) == Join(parts, sep) + [sep] + last
    decreases |parts|
  {
    if |parts| > 1 {
      assert (parts + [last])[0] == parts[0] && (parts + [last])[1..] == parts[1..] + [last];
      JoinAppend(parts[1..], last, sep);
      calc {
        Join(parts + [last], sep);
        parts[0] + [sep] + Join(parts[1..] + [last], sep);
        parts[0] + [sep] + (Join(parts[1..], sep) + [sep] + last);
        (parts[0] + [sep] + Join(parts[1..], sep)) + [sep] + last;
        Join(parts, sep) + [sep] + last;
      }
    } else {
      assert parts + [last] == [parts[0], last];
      assert [parts[0], last][1..] == [last];
    }
  }

  /** Joining three parts puts the separator between each neighbouring pair. */
  lemma JoinThree(a: string, b: string, c: string, sep: char)
    ensures Join([a, b, c], sep) == a + [sep] + b + [sep] + c
  {
    assert [a, b, c][1..] == [b, c];
    assert [b, c][1..] == [c];
    assert Join([b, c], sep) == b + [sep] + c;
    assert Join([a, b, c], sep) == a + [sep] + (b + [sep] + c);
  }

  /** Three separator-free parts joined by the separator split back into those parts. */
  lemma SplitThree(a: string, b: string, c: string, sep: char)
    requires sep !in a && sep !in b && sep !in c
    ensures Split(a + [sep] + b + [sep] + c, sep) == [a, b, c]
  {
    JoinThree(a, b, c, sep);
    SplitJoin([a, b, c], sep);
  }

  /** `Array.prototype.join('')`: the parts one after another. */
  function Concat(parts: seq<string>): string {
    if |parts| == 0 then "" else parts[0] + Concat(parts[1..])
  }

  /** Concatenation of parts distributes over appending part lists. */
  lemma {:induction false} ConcatAppend(a: seq<string>, b: seq<string>)
    ensures Concat(a + b) == Concat(a) + Concat(b)
    decreases |a|
  {
    if |a| > 0 {
      assert (a + b)[1..] == a[1..] + b;
      ConcatAppend(a[1..], b);
    } else {
      assert a + b == b;
    }
  }

  /** A string with exactly one separator splits into the text before it and the text after it. */
  lemma SplitOne(s: string, sep: char)
    requires Count(s, sep) == 1
    ensures sep in s
    ensures var k := IndexOf(s, sep); Split(s, sep) == [s[..k], s[k + 1..]]
  {
    assert sep in multiset(s);
    var k := IndexOf(s, sep);
    var rest := Split(s[k + 1..], sep);
    assert s == s[..k] + [sep] + s[k + 1..];
    assert multiset(s) == multiset(s[..k]) + multiset{sep} + multiset(s[k + 1..]) by {
      calc {
        multiset(s);
        multiset(s[..k] + [sep] + s[k + 1..]);
      }
    }
    assert sep !in multiset(s[k + 1..]);
  }

  // ----- decimal text of integers -----

  function DigitChar(d: nat): (c: char)
    requires d < 10
    ensures IsDigit(c) && c as int - '0' as int == d
  {
    (d + '0' as int) as char
  }

  function DigitValue(c: char): nat
    requires IsDigit(c)
  {
    c as int - '0' as int
  }

  /** The number a string of decimal digits denotes. */
  function DigitsValue(s: string): nat
    requires AllDigits(s)
  {
    if |s| == 0 then 0 else DigitsValue(s[..|s| - 1]) * 10 + DigitValue(s[|s| - 1])
  }

  /** Shortest decimal text of a natural number. */
  function NatToString(n: nat): (s: string)
    ensures |s| > 0 && AllDigits(s)
    ensures |s| > 1 ==> s[0] != '0'
    decreases n
  {
    if n < 10 then [DigitChar(n)] else NatToString(n / 10) + [DigitChar(n % 10)]
  }

  /** Reading the decimal text of `n` gives `n` back. */
  lemma {:induction false} NatToStringValue(n: nat)
    ensures DigitsValue(NatToString(n)) == n
    decreases n
  {
    if n >= 10 {
      var s := NatToString(n);
      assert s[..|s| - 1] == NatToString(n / 10);
      NatToStringValue(n / 10);
    }
  }

  /**
    The text a template literal gives an integer-valued number: a minus sign
    for negatives, then the shortest decimal digits of the magnitude.
   */
  function IntToString(n: int): (s: string)
    ensures |s| > 0
    ensures n >= 0 ==> AllDigits(s) && DigitsValue(s) == n
    ensures n < 0 ==> s[0] == '-' && |s| > 1 && AllDigits(s[1..]) && DigitsValue(s[1..]) == -n
    ensures n >= 0 && |s| > 1 ==> s[0] != '0'
    ensures n < 0 && |s| > 2 ==> s[1] != '0'
  {
    if n < 0 then
      NatToStringValue(-n);
      var d := NatToString(-n);
      assert ("-" + d)[1..] == d;
      "-" + d
    else
      NatToStringValue(n);
      NatToString(n)
  }

  /** The text of an integer holds only digits and the minus sign. */
  lemma IntToStringChars(n: int)
    ensures forall c :: c in IntToString(n) ==> IsDigit(c) || c == '-'
  {
    var s := IntToString(n);
    if n < 0 {
      assert s == [s[0]] + s[1..];
    }
  }
}

=== FILE: track.dfy ===
/**
  The track recorder: the admission filter the position-update handler
  applies to each fix while tracking is on, the clear action, and the
  recorder as a state machine over toggle, fix and clear events.
 */
module Track {

  /** A recorded `[latitude, longitude]` pair. */
  type TrackPoint = (real, real)

  /** Fixes whose accuracy radius (metres) is not below this are not recorded. */
  const AccuracyLimit: real := 20.0

  /** No point repeats the one just before it. */
  predicate NoAdjacentRepeats(track: seq<TrackPoint>) {
    forall i :: 0 < i < |track| ==> track[i] != track[i - 1]
  }

  /** No point has a zero latitude or a zero longitude. */
  predicate NoZeroCoordinates(track: seq<TrackPoint>) {
    forall i :: 0 <= i < |track| ==> track[i].0 != 0.0 && track[i].1 != 0.0
  }

  /**
    The handler's track update for one fix. The outer guard is the
    truthiness test `trackingEnabled && latitude && longitude`, so a zero
    coordinate is never recorded; the inner one keeps only a fix that
    differs from the last point and is accurate to under 20 m.
   */
  function RecordFix(tracking: bool, track: seq<TrackPoint>, lat: real, lng: real, accuracy: real): (r: seq<TrackPoint>)
    ensures |track| <= |r| <= |track| + 1 && r[..|track|] == track
    ensures |r| == |track| + 1 <==>
      && tracking && lat != 0.0 && lng != 0.0 && accuracy < 20.0
      && (|track| == 0 || track[|track| - 1] != (lat, lng))
    ensures |r| == |track| + 1 ==> r[|track|] == (lat, lng)
    ensures NoAdjacentRepeats(track) ==> NoAdjacentRepeats(r)
    ensures NoZeroCoordinates(track) ==> NoZeroCoordinates(r)
  {
    if tracking && lat != 0.0 && lng != 0.0 then
      var isNewPoint := |track| == 0 || track[|track| - 1].0 != lat || track[|track| - 1].1 != lng;
      var isAccurateEnough := accuracy < AccuracyLimit;
      if isNewPoint && isAccurateEnough then track + [(lat, lng)] else track
    else
      track
  }

  /** `clearTrack`: empties the track once the user confirms; a declined confirmation changes nothing. */
  function ClearTrack(track: seq<TrackPoint>, confirmed: bool): (r: seq<TrackPoint>)
    ensures confirmed ==> r == []
    ensures !confirmed ==> r == track
  {
    if confirmed then [] else track
  }

  /** After a confirmed clear, the next admitted fix starts a one-point track; a declined clear keeps the track. */
  lemma ClearThenRecord(track: seq<TrackPoint>, lat: real, lng: real, accuracy: real)
    ensures ClearTrack(track, false) == track
    ensures lat != 0.0 && lng != 0.0 && accuracy < AccuracyLimit
      ==> RecordFix(true, ClearTrack(track, true), lat, lng, accuracy) == [(lat, lng)]
    ensures !(lat != 0.0 && lng != 0.0 && accuracy < AccuracyLimit)
      ==> RecordFix(true, ClearTrack(track, true), lat, lng, accuracy) == []
  {
  }

  // ----- the recorder as a state machine -----

  datatype Recorder = Recorder(tracking: bool, track: seq<TrackPoint>)

  /** The inputs of the recorder: the tracking button, a geolocation fix, the clear button. */
  datatype Event = ToggleTracking | Fix(lat: real, lng: real, accuracy: real) | Clear(confirmed: bool)

  function Step(r: Recorder, e: Event): Recorder {
    match e
    case ToggleTracking => r.(tracking := !r.tracking)
    case Fix(lat, lng, accuracy) => r.(track := RecordFix(r.tracking, r.track, lat, lng, accuracy))
    case Clear(confirmed) => r.(track := ClearTrack(r.track, confirmed))
  }

  /** Some event is a clear the user confirmed; a declined one leaves the track alone. */
  predicate HasConfirmedClear(events: seq<Event>) {
    exists i :: 0 <= i < |events| && events[i] == Clear(true)
  }

  /**
    The recorder after a sequence of events, in arrival order. The two track
    invariants survive any run, and without a confirmed clear the track
    only grows at its end.
   */
  function Run(r: Recorder, events: seq<Event>): (final: Recorder)
    ensures NoAdjacentRepeats(r.track) ==> NoAdjacentRepeats(final.track)
    ensures NoZeroCoordinates(r.track) ==> NoZeroCoordinates(final.track)
    ensures !HasConfirmedClear(events) ==> |r.track| <= |final.track| && final.track[..|r.track|] == r.track
    ensures |final.track| <= |r.track| + |events|
    decreases |events|
  {
    if |events| == 0 then r
    else
      var next := Step(r, events[0]);
      assert !HasConfirmedClear(events) ==> !HasConfirmedClear(events[1..]) by {
        if HasConfirmedClear(events[1..]) {
          var i :| 0 <= i < |events[1..]| && events[1..][i] == Clear(true);
          assert events[i + 1] == Clear(true);
        }
      }
      var final := Run(next, events[1..]);
      assert !HasConfirmedClear(events) ==> final.track[..|r.track|] == final.track[..|next.track|][..|r.track|];
      final
  }

  /** Turn tracking on, then two identical good fixes, a new good fix and an inaccurate one. */
  lemma RecorderExample()
    ensures Run(Recorder(false, []),
                [ToggleTracking, Fix(1.0, 1.0, 5.0), Fix(1.0, 1.0, 5.0), Fix(1.0, 2.0, 5.0), Fix(1.0, 2.0, 25.0)]).track
            == [(1.0, 1.0), (1.0, 2.0)]
  {
    var events := [ToggleTracking, Fix(1.0, 1.0, 5.0), Fix(1.0, 1.0, 5.0), Fix(1.0, 2.0, 5.0), Fix(1.0, 2.0, 25.0)];
    var r1 := Recorder(true, []);
    var r2 := Recorder(true, [(1.0, 1.0)]);
    var r4 := Recorder(true, [(1.0, 1.0), (1.0, 2.0)]);
    assert Run(r4, events[4..]) == r4 by {
      assert events[4..] == [Fix(1.0, 2.0, 25.0)];
      assert Run(r4, events[5..]) == r4;
    }
    assert Run(r2, events[3..]) == r4 by {
      assert events[3..][0] == Fix(1.0, 2.0, 5.0);
      assert RecordFix(true, r2.track, 1.0, 2.0, 5.0) == r2.track + [(1.0, 2.0)] == r4.track;
      assert events[3..][1..] == events[4..];
    }
    assert Run(r2, events[2..]) == r4 by {
      assert events[2..][1..] == events[3..];
    }
    assert Run(r1, events[1..]) == r4 by {
      assert events[1..][1..] == events[2..];
    }
  }
}

=== FILE: waypoints.dfy ===
/**
  The list of named waypoints: saving the current position under a name
  the user types, and deleting by identifier after confirmation. The
  identifier and the timestamp, which the component draws from
  `crypto.randomUUID()` and `Date.now()`, are parameters here.
 */
module Waypoints {
  import opened Base

  datatype SavedPoint = SavedPoint(id: string, name: string, lat: real, lng: real, timestamp: int)

  /** No two points share an identifier. */
  predicate UniqueIds(points: seq<SavedPoint>) {
    forall i, j :: 0 <= i < j < |points| ==> points[i].id != points[j].id
  }

  predicate HasId(points: seq<SavedPoint>, id: string) {
    exists i :: 0 <= i < |points| && points[i].id == id
  }

  /**
    `saveCurrentPoint`: with no current position, or when the name prompt is
    cancelled (`None`) or answered with the empty string, nothing changes;
    otherwise the new point goes at the end. The name is not trimmed, so a
    name of blanks is kept.
   */
  function SavePoint(points: seq<SavedPoint>, current: Option<Coordinates>, name: Option<string>,
                     id: string, now: int): (r: seq<SavedPoint>)
    ensures current.None? || name.None? || name == Some("") ==> r == points
    ensures current.Some? && name.Some? && name.value != "" ==>
      && |r| == |points| + 1
      && r[..|points|] == points
      && r[|points|] == SavedPoint(id, name.value, current.value.lat, current.value.lng, now)
  {
    match current
    case None => points
    case Some(coords) =>
      match name
      case None => points
      case Some(n) =>
        if n == "" then points
        else points + [SavedPoint(id, n, coords.lat, coords.lng, now)]
  }

  /**
    `savedPoints.filter(point => point.id !== id)`: the points with another
    identifier, in their original order.
   */
  function WithoutId(points: seq<SavedPoint>, id: string): seq<SavedPoint> {
    if |points| == 0 then []
    else
      var rest := WithoutId(points[1..], id);
      if points[0].id == id then rest else [points[0]] + rest
  }

  /**
    The survivors of the filter are exactly the points with another
    identifier, and the list gets shorter exactly when some point carried
    the identifier.
   */
  lemma {:induction false} WithoutIdContents(points: seq<SavedPoint>, id: string)
    ensures forall p :: p in WithoutId(points, id) <==> p in points && p.id != id
    ensures |WithoutId(points, id)| <= |points|
    ensures |WithoutId(points, id)| == |points| <==> !HasId(points, id)
    decreases |points|
  {
    if |points| > 0 {
      WithoutIdContents(points[1..], id);
      HasIdCons(points, id);
      assert points == [points[0]] + points[1..];
    }
  }

  lemma HasIdCons(points: seq<SavedPoint>, id: string)
    requires |points| > 0
    ensures HasId(points, id) <==> points[0].id == id || HasId(points[1..], id)
  {
    if HasId(points, id) && points[0].id != id {
      var i :| 0 <= i < |points| && points[i].id == id;
      assert points[1..][i - 1].id == id;
    }
    if HasId(points[1..], id) {
      var i :| 0 <= i < |points[1..]| && points[1..][i].id == id;
      assert points[i + 1].id == id;
    }
  }

  /** `deletePoint`: removes every point with the identifier once confirmed; a declined confirmation changes nothing. */
  function DeletePoint(points: seq<SavedPoint>, id: string, confirmed: bool): (r: seq<SavedPoint>)
    ensures !confirmed ==> r == points
    ensures confirmed ==> forall p :: p in r <==> p in points && p.id != id
  {
    WithoutIdContents(points, id);
    if confirmed then WithoutId(points, id) else points
  }

  /** Filtering distributes over concatenation, so the survivors keep their relative order. */
  lemma {:induction false} WithoutIdConcat(a: seq<SavedPoint>, b: seq<SavedPoint>, id: string)
    ensures WithoutId(a + b, id) == WithoutId(a, id) + WithoutId(b, id)
    decreases |a|
  {
    if |a| > 0 {
      var head := if a[0].id == id then [] else [a[0]];
      assert (a + b)[0] == a[0] && (a + b)[1..] == a[1..] + b;
      WithoutIdConcat(a[1..], b, id);
      calc {
        WithoutId(a + b, id);
        head + WithoutId(a[1..] + b, id);
        head + (WithoutId(a[1..], id) + WithoutId(b, id));
        (head + WithoutId(a[1..], id)) + WithoutId(b, id);
        WithoutId(a, id) + WithoutId(b, id);
      }
    } else {
      assert a + b == b;
    }
  }

  /** Deleting an identifier no point carries changes nothing. */
  lemma {:induction false} WithoutAbsentId(points: seq<SavedPoint>, id: string)
    requires !HasId(points, id)
    ensures WithoutId(points, id) == points
    decreases |points|
  {
    if |points| > 0 {
      assert points[0].id != id;
      WithoutAbsentId(points[1..], id);
      assert points == [points[0]] + points[1..];
    }
  }

  /** Deleting the same identifier twice is deleting it once. */
  lemma DeleteIdempotent(points: seq<SavedPoint>, id: string)
    ensures DeletePoint(DeletePoint(points, id, true), id, true) == DeletePoint(points, id, true)
  {
    var once := WithoutId(points, id);
    WithoutIdContents(points, id);
    assert !HasId(once, id) by {
      forall i | 0 <= i < |once| ensures once[i].id != id {
        assert once[i] in once;
      }
    }
    WithoutAbsentId(once, id);
  }

  /** Deleting a freshly saved point restores the list it was saved into. */
  lemma DeleteUndoesSave(points: seq<SavedPoint>, coords: Coordinates, name: string, id: string, now: int)
    requires name != "" && !HasId(points, id)
    ensures DeletePoint(SavePoint(points, Some(coords), Some(name), id, now), id, true) == points
  {
    var p := SavedPoint(id, name, coords.lat, coords.lng, now);
    WithoutIdConcat(points, [p], id);
    WithoutAbsentId(points, id);
    assert WithoutId([p], id) == [];
  }

  /** Saving under a fresh identifier keeps identifiers unique; deleting never breaks uniqueness. */
  lemma SaveDeleteKeepUniqueIds(points: seq<SavedPoint>, current: Option<Coordinates>, name: Option<string>,
                                id: string, now: int, other: string, confirmed: bool)
    requires UniqueIds(points) && !HasId(points, id)
    ensures UniqueIds(SavePoint(points, current, name, id, now))
    ensures UniqueIds(DeletePoint(points, other, confirmed))
  {
    var r := SavePoint(points, current, name, id, now);
    if |r| == |points| + 1 {
      forall i, j | 0 <= i < j < |r| ensures r[i].id != r[j].id {
        if j == |points| {
          assert r[i] == points[i];
        } else {
          assert r[i] == points[i] && r[j] == points[j];
        }
      }
    }
    UniqueIdsWithout(points, other);
  }

  lemma {:induction false} UniqueIdsWithout(points: seq<SavedPoint>, id: string)
    requires UniqueIds(points)
    ensures UniqueIds(WithoutId(points, id))
    decreases |points|
  {
    if |points| > 0 {
      var rest := WithoutId(points[1..], id);
      UniqueIdsWithout(points[1..], id);
      if points[0].id != id {
        assert !HasId(points[1..], points[0].id);
        WithoutIdKeepsAbsent(points[1..], id, points[0].id);
        UniqueCons(points[0], rest);
      }
    }
  }

  /** Filtering never introduces an identifier. */
  lemma WithoutIdKeepsAbsent(points: seq<SavedPoint>, id: string, other: string)
    requires !HasId(points, other)
    ensures !HasId(WithoutId(points, id), other)
  {
    var r := WithoutId(points, id);
    WithoutIdContents(points, id);
    forall i | 0 <= i < |r| ensures r[i].id != other {
      assert r[i] in points;
    }
  }

  lemma UniqueCons(p: SavedPoint, rest: seq<SavedPoint>)
    requires UniqueIds(rest) && !HasId(rest, p.id)
    ensures UniqueIds([p] + rest)
  {
    var r := [p] + rest;
    forall i, j | 0 <= i < j < |r| ensures r[i].id != r[j].id {
      assert r[j] == rest[j - 1];
      if i > 0 {
        assert r[i] == rest[i - 1];
      }
    }
  }

  /** A name of blanks is accepted: the check is for the empty string only. */
  lemma BlankNameAccepted(points: seq<SavedPoint>, coords: Coordinates, id: string, now: int)
    ensures |SavePoint(points, Some(coords), Some("  "), id, now)| == |points| + 1
    ensures SavePoint(points, Some(coords), Some("  "), id, now)[|points|].name == "  "
  {
  }
}
